=== FILE: README.md ===
# Storefront core, modelled in Dafny

This project models the logic underneath a client-side storefront: a React
shop selling Bangladeshi goods with a cart, a mock back end kept in browser
storage, a login that needs only an e-mail address and a role, and three
role-specific dashboards. Everything here is pure functions over immutable
datatypes. Each state change — of the cart, the store, the session, a page —
is a function from the old state to the new one.

The modules follow the program's structure:

- `Types` (`types.dfy`) holds the entities: `Role`, `Status`, `Product`,
  `CartItem`, `Order`, `User`, `Category`. It also holds JavaScript's
  truthiness rules for optional values. `discountPrice || price` uses the
  discount only when it is present and non-zero (`EffectivePrice`), and
  `s || fallback` treats the empty string as missing (`OrElse`).
- `Seqs` (`seqs.dfy`) provides `find`, `filter` and `reduce`-with-`+`, plus a
  stable insertion sort that stands for `Array.prototype.sort`. The sort
  takes a numeric key, which is equivalent to a subtracting comparator, and
  JavaScript's sort is stable since ES2019.
- `Decimal` (`decimal.dfy`) renders natural numbers as decimal text and parses
  them back. It builds the generated ids `ORD-<n>` and `extra-<i>`.
- `Cart` (`cart.dfy`) is the cart context.
- `Store` (`store.dfy`) is the mock back end.
- `Session` (`session.dfy`) is the authentication context.
- `Routing` (`routing.dfy`) covers the route guard, the route table, the
  login form's redirect, and the navigation bar's dashboard link and cart badge.
- `Checkout` (`checkout.dfy`) is the checkout page's order assembly and
  submit step.
- `Catalog` (`catalog.dfy`) covers the shop listing, the product details page
  and the product card.
- `Seed` (`seed.dfy`) is the built-in category list and the generated seed
  catalog.

A few modelling choices:

- Browser storage is a record of optional sequences (`Store.Storage`): `None`
  is an absent key. The persisted session and cart are `Option` values handed
  to the restore functions. The cart writes every change back to storage, so
  the next visit restores the cart the last one ended with
  (`Cart.AcrossVisits`).
- Every random number and every clock reading is a parameter: a real draw in
  [0, 1) where the code computes `Math.floor(Math.random() * k)`, an arbitrary
  string where it uses a base-36 random suffix, and a string for the creation
  time.
- A cart line is `CartItem(product, quantity)`. The code spreads the product
  into the line (`{...product, quantity}`), so the code's `item.id` is
  `item.product.id` here.
- `addToCart` tests `prev.find(...)` for truthiness. Cart lines are objects,
  so that test is the same as "some line has this id", which is how
  `Cart.AddToCart` states it.
- A user's `avatar` and `verified` fields are optional in the type
  declarations but always set by `login`, so they are plain fields here.
- `getOrders` filters by `userId` for every role other than ADMIN and VENDOR,
  GUEST included, and the model follows that. The route table has no GUEST
  entry, and `Routing.GuestRedirectLoops` shows that a GUEST sent to
  `/dashboard` is sent there again. The login form offers only USER, VENDOR
  and ADMIN, so no GUEST session arises from it.
- The order that checkout stores carries the cart total without the ৳60
  delivery charge. The page shows the total with it as the amount to pay
  (`Checkout.OrderTotalExcludesDelivery`).
- On the product card and the details page, a discount price of 0 is falsy.
  No struck-through price or savings label is shown for it, and the list
  price is charged.

## Model

| member | source | states |
|---|---|---|
| Cart.Restore | contexts/CartContext.tsx:20-23 | start-up restores the saved lines unchanged, and an empty cart when nothing was saved |
| Cart.Find | contexts/CartContext.tsx:31 | finds no line exactly when no line has the id; otherwise finds a line of the cart with that id |
| Cart.AddToCart | contexts/CartContext.tsx:29-37 | with the id present, the length is kept, matching lines gain `quantity` with their product unchanged, and other lines are untouched; with the id absent, exactly `{product, quantity}` is appended; the id is present afterwards; the quantity is not validated |
| Cart.AddToCartKeepsUnique | contexts/CartContext.tsx:29-37 | adding to a cart with one line per id keeps one line per id |
| Cart.RemoveFromCart | contexts/CartContext.tsx:39-41 | no line with the id remains, every other line is kept as many times as it occurred and in order (a subsequence), nothing is added, it is a no-op when the id is absent, and the invariant is preserved |
| Cart.UpdateQuantity | contexts/CartContext.tsx:43-46 | a quantity ≤ 0 is exactly a removal; a positive quantity replaces (does not add to) the matching lines' quantity, keeps every product and the length, never inserts a line, and preserves the invariant |
| Cart.ClearCart | contexts/CartContext.tsx:48 | the cart becomes empty, which satisfies the invariant |
| Cart.AddToCartTotals | contexts/CartContext.tsx:29-51 | on a cart with unique ids, adding q units raises the item count by q and the price total by q times the unit price of the line that receives them |
| Cart.RemoveFromCartTotals | contexts/CartContext.tsx:39-51 | removing an id lowers the item count by that line's quantity and the total by that line's amount (by nothing if absent) |
| Cart.UpdateQuantityTotals | contexts/CartContext.tsx:43-50 | a positive update moves the item count from the old quantity of the line to the new one, and changes nothing when the id is absent |
| Cart.AddToCartQuantity | contexts/CartContext.tsx:29-37 | on a cart with unique ids, the total quantity under p's id rises by exactly the added quantity, whether p had a line or not |
| Cart.TotalItems | contexts/CartContext.tsx:50 | the item count of an empty cart is 0, and when every line has a positive quantity it is at least the number of lines |
| Cart.TotalPrice | contexts/CartContext.tsx:51 | the total of an empty cart is 0, and it is never negative when no line has a negative quantity or unit price |
| Cart.AddAllAccumulates | contexts/CartContext.tsx:29-37 | from a cart without p, successive adds of p with quantities q1..qn leave the other lines as they were and one p line at the end with quantity Σqi |
| Cart.RestoreKeepsPositive | contexts/CartContext.tsx:20-23 | restoring saved lines that all have positive quantities, or nothing, yields a cart whose quantities are all positive |
| Cart.AddKeepsPositive | contexts/CartContext.tsx:29-37 | adding a quantity of at least 1 to a cart with positive quantities keeps every quantity positive |
| Cart.RemoveKeepsPositive | contexts/CartContext.tsx:39-41 | removing an id keeps every quantity positive |
| Cart.UpdateKeepsPositive | contexts/CartContext.tsx:43-46 | an update with any quantity keeps every quantity positive, because a quantity ≤ 0 removes the line |
| Cart.OpsKeepPositive | contexts/CartContext.tsx:29-48 | any sequence of adds of at least 1 unit (the card adds 1, the details stepper at least 1), removals, updates of any quantity (such as the cart page's ± buttons at pages/Cart.tsx:67-69) and clears keeps every quantity positive |
| Cart.VisitsKeepPositive | contexts/CartContext.tsx:20-27 | since every change is written back and restored on the next visit, any run of visits (adds of at least 1 unit, removals, updates, clears) from a positive saved cart, or none, keeps every quantity positive |
| Store.Init | services/mockApi.ts:21-24 | the seed catalog is written only when the products key is absent; a present key and the orders are left alone |
| Store.InitFixesCatalog | services/mockApi.ts:21-29 | after start-up the catalog read no longer depends on the fallback seed, and a second start-up changes nothing |
| Store.GetProducts | services/mockApi.ts:27-30 | reads the stored catalog when the key is present, and the built-in seed otherwise |
| Store.GetProductById | services/mockApi.ts:32-35 | returns the first stored product with the id, and returns none exactly when no stored product has it |
| Store.GetVendorProducts | services/mockApi.ts:37-40 | returns the products with that vendor id, each as many times as it is stored, and no others, in stored order |
| Store.AddProduct | services/mockApi.ts:42-53 | the new product is at index 0 and the previous catalog follows unchanged; the id is `p-` plus the random suffix; rating and review count are 0; every other field comes from the input; orders are untouched |
| Store.DeleteProduct | services/mockApi.ts:55-59 | keeps every product whose id differs, each as many times as it was stored, and no others, in order, and leaves the orders untouched |
| Store.DeleteProductIdempotent | services/mockApi.ts:55-59 | deleting the same id twice equals deleting it once |
| Store.DeleteAbsentIsNoOp | services/mockApi.ts:55-59 | deleting an id no product has leaves the catalog as it reads |
| Store.DeleteUndoesAdd | services/mockApi.ts:42-59 | deleting a just-added product whose id was new restores the catalog |
| Store.OrderNumber | services/mockApi.ts:66 | the random order number lies in [0, 999999] |
| Store.CreateOrder | services/mockApi.ts:61-72 | appends exactly one order after the unchanged previous ones; it is PENDING, its id is `ORD-` plus a number ≤ 999999, it has the given time and the draft's fields; products are untouched |
| Store.GetOrders | services/mockApi.ts:74-84 | ADMIN gets every order; VENDOR gets the orders with a line from that vendor and every other role the orders with that user id, each with its stored multiplicity and no others; each result is an order-preserving subsequence of the stored orders |
| Store.AdminSeesEverything | services/mockApi.ts:74-84 | every order in any actor's view is also in the administrator's view |
| Store.SetStatus | services/mockApi.ts:88 | keeps the length; orders with the id get the new status whatever the old one was; all their other fields and all other orders are unchanged |
| Store.UpdateOrderStatus | services/mockApi.ts:86-90 | stores the status-updated orders and leaves the products alone |
| Store.UpdateCommutesWithViews | services/mockApi.ts:74-90 | listing after a status update equals the update applied to the listing, so no order enters or leaves anyone's view |
| Store.CreateOrderViews | services/mockApi.ts:61-84 | after creating an order, each actor's listing is the old listing plus the new order exactly when their filter admits it |
| Session.Restore | contexts/AuthContext.tsx:18-24 | start-up adopts the saved user if there is one and otherwise keeps the user; loading is over afterwards |
| Session.LocalPart | contexts/AuthContext.tsx:33 | the name is the longest prefix of the e-mail without `@`: it is the whole string or is followed by an `@` |
| Session.LocalPartOfAddress | contexts/AuthContext.tsx:33 | for an address `name@domain` with no `@` in `name`, the derived user name is `name` |
| Session.NewUser | contexts/AuthContext.tsx:31-38 | the id is the random one; e-mail and role are stored verbatim; the name is the e-mail's local part; verified iff the role is not VENDOR; the avatar URL embeds the e-mail |
| Session.Login | contexts/AuthContext.tsx:26-43 | after login, the current user is the new record, the same record is persisted, and loading is over |
| Session.Logout | contexts/AuthContext.tsx:45-48 | the user and the persisted record are gone; the loading flag is not touched |
| Session.LoginSurvivesReload | contexts/AuthContext.tsx:18-43 | reloading after a login restores the same user |
| Session.LogoutSurvivesReload | contexts/AuthContext.tsx:18-48 | reloading after a logout starts signed out |
| Types.EffectivePrice | contexts/CartContext.tsx:51 | the unit price charged and shown is the list price when the discount is absent or 0, and the discount price otherwise |
| Routing.Guard | App.tsx:22-35 | while loading it shows the spinner; with no user it goes to `/login`; it renders iff loading is over, a user is present, and either no roles are given or the role is listed; otherwise it redirects to the role's dashboard |
| Routing.RouteAccess | App.tsx:176-199 | `/admin`, `/vendor`, `/dashboard` are guarded for their one role and `/checkout` for any user; the fourteen open pages and `/product/<id>` are public; every other path is unmatched |
| Routing.Visit | App.tsx:176-199 | open pages and product pages render; `/admin`, `/vendor` and `/dashboard` go through the guard with their one role and `/checkout` with no role list; a visit is sent to `/` exactly when no route matches |
| Routing.UnmatchedGoesHome | App.tsx:199 | a visit is redirected to `/` exactly when the path is neither guarded, nor an open page, nor a product page |
| Routing.RoleHomeAdmitsRole | App.tsx:27-31 | for USER, VENDOR and ADMIN, the dashboard the guard redirects to is a guarded route that lists that role |
| Routing.NoRedirectLoop | App.tsx:22-199 | on any path, unmatched ones included, for anonymous visitors and USER, VENDOR and ADMIN users, wherever a visit redirects renders, so no redirect loops back |
| Routing.GuestRedirectLoops | App.tsx:27-31 | a GUEST on `/admin` or `/dashboard` is sent to `/dashboard`, which sends a GUEST to `/dashboard` again |
| Routing.DashboardPath | components/Navbar.tsx:14-19 | the link is `/login` without a user and the role's dashboard otherwise |
| Routing.DashboardPathAgreesWithGuard | components/Navbar.tsx:14-19 | following the navigation link renders its page for an anonymous visitor and for USER, VENDOR and ADMIN users |
| Routing.AuthFormRedirect | App.tsx:45-51 | the login form navigates only when a user is present, and then to the same path as the navigation link and the guard |
| Routing.SubmitLogin | App.tsx:53-58 | an empty e-mail leaves the session untouched; otherwise the new user has that e-mail and role, and the form then navigates to that role's dashboard |
| Routing.CartBadgeShown | components/Navbar.tsx:49 | the badge shows iff the item count is positive, and, when every quantity is positive, iff the cart has a line |
| Routing.BadgeShownIffCartNonEmpty | components/Navbar.tsx:49 | for any cart reached from a restored cart through adds of at least one unit, removals, updates and clears, the badge shows exactly when the cart has a line |
| Routing.BadgeShownAcrossVisits | components/Navbar.tsx:49 | in a browser that starts with no saved cart, after any run of visits whose adds ask for at least 1 unit, the badge shows exactly when the cart has a line |
| Checkout.InitialForm | pages/Checkout.tsx:18-24 | the form starts with the user's name (empty without a user), empty phone and address, district Dhaka and cash on delivery |
| Checkout.Draft | pages/Checkout.tsx:26-43 | there is no order iff the cart is empty; otherwise the items are the cart verbatim, the vendor is the first line's, the total is the cart total, the user id is the user's or `guest`, the e-mail is the user's or `guest@example.com`, and the address is `address, district` |
| Checkout.GrandTotal | pages/Checkout.tsx:203-207 | the amount to pay is the ৳60 delivery charge for an empty cart and never less than it when no line is negative |
| Checkout.OrderTotalExcludesDelivery | pages/Checkout.tsx:36-207 | the stored order total is the displayed amount to pay minus the ৳60 delivery charge |
| Checkout.Submit | pages/Checkout.tsx:26-51 | an empty cart or a rejected order changes nothing; the cart is either kept or emptied, and emptied only when an order was stored; on success exactly one order is appended after the unchanged earlier ones |
| Checkout.CheckoutPlacesOrder | pages/Checkout.tsx:26-51 | a successful checkout by a signed-in user stores, last, a PENDING order with the cart lines and total, and the user's own listing gains exactly that order |
| Checkout.FirstVendorSeesOrder | pages/Checkout.tsx:34 | the vendor of the first cart line sees the placed order in their listing |
| Catalog.CategoryFilter | pages/Shop.tsx:20-23 | `All` keeps every product; any other category keeps the products with that category, each with its input multiplicity, and no others, in order |
| Catalog.Arrange | pages/Shop.tsx:25-27 | the result is a permutation of the input; price-low is ascending by list price, price-high descending by list price, rating descending; newest keeps the order |
| Catalog.ArrangeStable | pages/Shop.tsx:25-27 | products that tie under the selected comparator keep their relative order |
| Catalog.ShopView | pages/Shop.tsx:20-29 | the grid is a permutation of the category-filtered list and stays within the category; newest (or any unknown selector) shows the filtered order |
| Catalog.InitialCategory | pages/Shop.tsx:14 | the initial category is the non-empty `category` URL parameter, or `All` |
| Catalog.ToggleCategory | pages/Shop.tsx:34-38 | clicking the selected category selects `All`, any other click selects it; the URL parameters are empty iff the selection is `All`, and otherwise carry exactly the selection |
| Catalog.ToggleSurvivesReload | pages/Shop.tsx:14-38 | reopening the page from the URL a toggle wrote selects the same category |
| Catalog.ClearAll | pages/Shop.tsx:52 | the "Clear All" button (also "All Categories" at :60 and "Show All Products" at :139) selects `All`, while reopening from the unchanged URL selects the category selected before |
| Catalog.ClearAllLostOnReload | pages/Shop.tsx:14-52 | after a click selects Fashion and "Clear All" selects `All`, reopening the page selects Fashion again |
| Catalog.ClearAllFresh | pages/Shop.tsx:34-38 | clearing as a click on the selected category does selects `All` and writes a URL that reopens on `All` |
| Catalog.Related | pages/ProductDetails.tsx:29 | the first min(4, n) of the n seed products in p's category with another id, in seed order: the result is a prefix of that filtered list |
| Catalog.Load | pages/ProductDetails.tsx:20-35 | a found product is exactly the first stored product with the id, shown with its related products; an unknown id only clears the loading flag; without an id nothing happens |
| Catalog.UnknownIdNotFound | pages/ProductDetails.tsx:24-32 | on a freshly opened page, an unknown id leaves no product and no spinner |
| Catalog.Decrement | pages/ProductDetails.tsx:140 | decrement lowers the quantity by one but never below 1 |
| Catalog.RunStaysPositive | pages/ProductDetails.tsx:15-147 | from a quantity of at least 1, any sequence of stepper clicks keeps it at least 1 and at most the start plus the number of clicks |
| Catalog.DetailsAdd | pages/ProductDetails.tsx:154-155 | at zero stock the cart is unchanged; otherwise the cart is `addToCart(product, quantity)`, p's own line gains exactly the chosen quantity, the item count rises by exactly that much and the one-line-per-id invariant holds |
| Catalog.Savings | pages/ProductDetails.tsx:103-106 | the savings label (and the struck-through list price) appears iff the discount price is present and non-zero, and then the shown price plus the savings is the list price |
| Catalog.CardClick | components/ProductCard.tsx:14-63 | the cart is unchanged iff the product's stock is 0; an in-stock card adds exactly one unit, as the details page would |
| Catalog.PriceLowIgnoresDiscount | pages/Shop.tsx:25 | a product listed at 3200 with a discount to 2800 sorts after one at 3000 under price-low, although it shows the lower price |
| Catalog.ArrangeByShownPrice | pages/Shop.tsx:25 | a permutation of the input, ascending by the price each card shows |
| Catalog.UnknownIdKeepsStaleProduct | pages/ProductDetails.tsx:24-32 | after a product was shown, loading an id no product has leaves the old product on screen |
| Catalog.LoadFresh | pages/ProductDetails.tsx:24-32 | the page shows a product iff one has the id, and then exactly the first such product; otherwise it shows none and no related products |
| Seed.CategoriesWellFormed | constants.tsx:4-11 | there are six categories with ids `1` to `6` in order, pairwise distinct |
| Seed.MapToProduct | constants.tsx:50-65 | id `prod-` plus the random suffix; name, price and discount copied; the given category; a single image; vendor `v-tracketo` / Bangla Direct, verified; rating in [4.2, 5); reviews in [0, 499]; stock in [20, 49] |
| Seed.ItemsDiscounts | constants.tsx:16-48 | of the 25 items, only items 0 and 2 carry a discount, each positive and below its price |
| Seed.BaseProducts | constants.tsx:16-69 | 25 products: 10 Fashion, then 10 Groceries, then 5 Electronics, with ids `prod-` plus their draw's suffix, the fixed vendor, one image, and the stock and review bounds |
| Seed.BaseDiscounts | constants.tsx:16-69 | among the base products, exactly products 0 and 2 carry a discount price, each positive and below the list price |
| Seed.SeedCategoriesListed | constants.tsx:4-69 | every base product's category is the name of a listed category |
| Seed.ExtraIdsDistinct | constants.tsx:51-74 | `extra-i` ids of different indexes differ, and none equals a `prod-` id |
| Seed.Pad | constants.tsx:72-75 | padding yields exactly 45 entries with the base first; entry i ≥ 25 has id `extra-i` and is a copy of an earlier entry, and so of a base product, under that id |
| Seed.Generate | constants.tsx:13-78 | the seed list has 45 entries: the base products, then copies of base products under `extra-i` ids, each distinct from every other id in the list |

## Left out

- Browser storage itself (`localStorage`, `JSON.parse`/`JSON.stringify`, key names, unreadable saved data): storage is modelled as absent or present values.
- Asynchrony: the simulated latencies, promises, and React effect and render timing. Every operation is one atomic step, and the spinner flags are modelled only where a contract mentions them.
- `Math.random` and `new Date()`: their results are parameters. Generated ids are random and can collide, so nothing here claims they are unique, except the `extra-<i>` padding ids.
- Session.Restore: the saved user is adopted when the key holds any text; a stored empty string, which the code treats as absent, is not distinguished from an absent key.
- Seed.MapToProduct: the rating `4.2 + r * 0.8` is computed over exact reals, so floating-point rounding is not modelled.
- Seed.Generate: the base `prod-` ids come from independent random suffixes and may coincide with each other; only the padding ids are proved distinct.
- Display arithmetic in floating point: the savings percentage on the card, the cart page's tax, and the dashboard revenue share.
- Presentation-only pages and components: the dashboards (including the status selector that does nothing), the home, cart and static pages, and the footer. JSX layout and styling are also left out.
- Checkout.Submit: the failure alert and the loading flag are not modelled; a rejection is a `Failed` reply that leaves everything as it was.
- The stray `0` that React renders for `{product.discountPrice && (...)}` when the discount price is 0 (components/ProductCard.tsx:24 and :55, pages/ProductDetails.tsx:103): only whether the badge, struck-through price and savings label appear is modelled, not this literal text.
- The shop reads the `category` URL parameter only when the page mounts, so a later change of URL with the page still open (the navigation bar's plain `/shop` link, components/Navbar.tsx:45) keeps the selection. `Catalog.ToggleCategory` and `Catalog.ClearAll` model the clicks and reopening the page, not in-page URL changes.
- The browser's form checks (`required` and `type="email"` at App.tsx:80-81, `required` at pages/Checkout.tsx:91, :105 and :128): `Routing.SubmitLogin` and `Checkout.Submit` accept every input, empty fields included, so the browser's checks only narrow what reaches them.
- Route matching: paths are compared as exact strings, so case-insensitive matching, trailing-slash normalisation and percent-decoding are not modelled; `/product/<id>` is any non-empty segment without `/`.
- The payment method is stored in the form but never sent with the order, so it has no effect in the model either.

## Findings

| source | as written | input that shows it | evidently intended | confidence | as-written member | corrected member |
|---|---|---|---|---|---|---|
| pages/Shop.tsx:25 | "price low to high" compares `a.price - b.price`, the list price, while every card shows `discountPrice \|\| price` | a product at 3200 discounted to 2800 and a product at 3000: the order shown is 3000, 2800 | order by the price the shopper sees | medium, not executed | Catalog.PriceLowIgnoresDiscount | Catalog.ArrangeByShownPrice |
| pages/Shop.tsx:52 | "Clear All" (and the buttons at :60 and :139) only sets the selection to `All` and leaves `?category=` in the URL | on `/shop?category=Fashion`, click "Clear All" and reload: Fashion is selected again | clear the URL parameter as a click back to `All` does (pages/Shop.tsx:37) | medium, not executed | Catalog.ClearAllLostOnReload | Catalog.ClearAllFresh |
| pages/ProductDetails.tsx:24-32 | when the id is not found, only the loading flag is reset; the product state from a previous id is kept | show product `a`, then open `/product/x` where no product has id `x`: product `a` is displayed under `x` | show "not found" for an unknown id | medium, not executed | Catalog.UnknownIdKeepsStaleProduct | Catalog.LoadFresh |

=== FILE: cart.dfy ===
/**
 The shopping cart held by the cart context: a sequence of cart lines kept
 with at most one line per product id, four mutations (add, remove, update
 quantity, clear), restoring from the persisted copy, and the two derived
 values shown throughout the pages (item count and price total).
 */
module Cart {

  import opened Types
  import opened Seqs

  type Items = seq<CartItem>

  predicate HasId(c: Items, id: string) {
    exists i :: 0 <= i < |c| && c[i].product.id == id
  }

  /** The cart invariant: no two lines share a product id. */
  predicate UniqueIds(c: Items) {
    forall i, j :: 0 <= i < j < |c| ==> c[i].product.id != c[j].product.id
  }

  function IsId(id: string): CartItem -> bool {
    (i: CartItem) => i.product.id == id
  }

  function NotId(id: string): CartItem -> bool {
    (i: CartItem) => i.product.id != id
  }

  /** The line for product `id`, if any (`items.find(i => i.id === id)`). */
  function Find(c: Items, id: string): (r: Option<CartItem>)
    ensures r.None? <==> !HasId(c, id)
    ensures r.Some? ==> r.value in c && r.value.product.id == id
  {
    FindFirst(c, IsId(id))
  }

  /** The cart after the persisted copy is read at start-up; nothing saved means empty. */
  function Restore(saved: Option<Items>): (r: Items)
    ensures saved.Some? ==> r == saved.value
    ensures saved.None? ==> r == []
  {
    saved.GetOr([])
  }

  /**
   Adds `quantity` units of `p` (one unit by default). A line with the same
   id has its quantity raised; otherwise a new line goes at the end. The
   quantity is not checked: zero or negative amounts are applied as given.
   */
  function AddToCart(c: Items, p: Product, quantity: int := 1): (r: Items)
    ensures HasId(c, p.id) ==> |r| == |c|
    ensures !HasId(c, p.id) ==> r == c + [CartItem(p, quantity)]
    ensures forall i :: 0 <= i < |c| && c[i].product.id != p.id ==> r[i] == c[i]
    ensures forall i :: 0 <= i < |c| && c[i].product.id == p.id ==>
              r[i].product == c[i].product && r[i].quantity == c[i].quantity + quantity
    ensures HasId(r, p.id)
  {
    if HasId(c, p.id) then
      seq(|c|, i requires 0 <= i < |c| =>
        if c[i].product.id == p.id then c[i].(quantity := c[i].quantity + quantity) else c[i])
    else
      var r := c + [CartItem(p, quantity)];
      assert r[|c|].product.id == p.id;
      r
  }

  /** Adding keeps the one-line-per-id invariant. */
  lemma AddToCartKeepsUnique(c: Items, p: Product, quantity: int)
    requires UniqueIds(c)
    ensures UniqueIds(AddToCart(c, p, quantity))
  {
    var r := AddToCart(c, p, quantity);
    if !HasId(c, p.id) {
      assert forall i :: 0 <= i < |c| ==> r[i] == c[i];
    }
  }

  /** Deletes every line with product `id` and keeps the rest in order. */
  function RemoveFromCart(c: Items, id: string): (r: Items)
    ensures !HasId(r, id)
    ensures forall i :: 0 <= i < |c| && c[i].product.id != id ==> c[i] in r
    ensures forall i :: 0 <= i < |r| ==> r[i] in c
    ensures IsSubsequence(r, c)
    ensures !HasId(c, id) ==> r == c
    ensures UniqueIds(c) ==> UniqueIds(r)
    ensures forall x :: multiset(r)[x] == if x.product.id != id then multiset(c)[x] else 0
  {
    FilterCount(c, NotId(id));
    FilterIsSubsequence(c, NotId(id));
    FilterWithoutMatch(c, id);
    FilterKeepsUnique(c, id);
    Filter(c, NotId(id))
  }

  lemma FilterWithoutMatch(c: Items, id: string)
    ensures !HasId(c, id) ==> Filter(c, NotId(id)) == c
  {
    if !HasId(c, id) {
      FilterKeepsAll(c, NotId(id));
    }
  }

  lemma {:induction false} FilterKeepsUnique(c: Items, id: string)
    ensures UniqueIds(c) ==> UniqueIds(Filter(c, NotId(id)))
    decreases |c|
  {
    if |c| > 0 && UniqueIds(c) {
      FilterKeepsUnique(c[1..], id);
      var rest := Filter(c[1..], NotId(id));
      forall j | 0 <= j < |rest|
        ensures rest[j].product.id != c[0].product.id
      {
        var k :| 0 <= k < |c[1..]| && c[1..][k] == rest[j];
        assert c[k + 1] == rest[j];
      }
    }
  }

  /**
   Sets the quantity of the line with product `id`. A quantity of zero or
   less removes the line instead; a positive one replaces (does not add to)
   the old quantity and never inserts a line.
   */
  function UpdateQuantity(c: Items, id: string, quantity: int): (r: Items)
    ensures quantity <= 0 ==> r == RemoveFromCart(c, id)
    ensures quantity > 0 ==> |r| == |c|
    ensures quantity > 0 ==> forall i :: 0 <= i < |c| ==>
              r[i].product == c[i].product
              && r[i].quantity == (if c[i].product.id == id then quantity else c[i].quantity)
    ensures quantity > 0 ==> (HasId(r, id) <==> HasId(c, id))
    ensures UniqueIds(c) ==> UniqueIds(r)
  {
    if quantity <= 0 then RemoveFromCart(c, id)
    else
      seq(|c|, i requires 0 <= i < |c| =>
        if c[i].product.id == id then c[i].(quantity := quantity) else c[i])
  }

  function ClearCart(): (r: Items)
    ensures |r| == 0 && UniqueIds(r) && PositiveQuantities(r)
  {
    []
  }

  function Quantity(i: CartItem): int {
    i.quantity
  }

  /** One line's contribution to the total: effective unit price times quantity. */
  function LineTotal(i: CartItem): int {
    EffectivePrice(i.product) * i.quantity
  }

  /** Every line holds at least one unit. */
  predicate PositiveQuantities(c: Items) {
    forall i :: 0 <= i < |c| ==> c[i].quantity >= 1
  }

  /** No line has a negative quantity or a negative unit price. */
  predicate NonNegativeLines(c: Items) {
    forall i :: 0 <= i < |c| ==> c[i].quantity >= 0 && EffectivePrice(c[i].product) >= 0
  }

  /** The item count: the quantities summed over the lines. */
  function TotalItems(c: Items): (r: int)
    ensures |c| == 0 ==> r == 0
    ensures PositiveQuantities(c) ==> r >= |c|
  {
    CountAtLeastLines(c);
    Sum(c, Quantity)
  }

  lemma CountAtLeastLines(c: Items)
    ensures PositiveQuantities(c) ==> Sum(c, Quantity) >= |c|
  {
    if PositiveQuantities(c) {
      SumAtLeast(c, Quantity, 1);
    }
  }

  /** The cart total: each line's effective unit price times its quantity, summed. */
  function TotalPrice(c: Items): (r: int)
    ensures |c| == 0 ==> r == 0
    ensures NonNegativeLines(c) ==> r >= 0
  {
    TotalNonNegative(c);
    Sum(c, LineTotal)
  }

  lemma TotalNonNegative(c: Items)
    ensures NonNegativeLines(c) ==> Sum(c, LineTotal) >= 0
  {
    if NonNegativeLines(c) {
      forall i | 0 <= i < |c|
        ensures LineTotal(c[i]) >= 0
      {
        var e := EffectivePrice(c[i].product);
        assert e >= 0 && c[i].quantity >= 0;
        assert e * c[i].quantity >= 0;
      }
      SumAtLeast(c, LineTotal, 0);
    }
  }

  /** The quantity on the line for `id`, or 0 when there is none. */
  function QuantityOf(c: Items, id: string): int {
    match Find(c, id)
    case Some(item) => item.quantity
    case None => 0
  }

  /** The unit price that an added line for `p` is charged at: the existing line's, else `p`'s. */
  function UnitPriceFor(c: Items, p: Product): int {
    match Find(c, p.id)
    case Some(item) => EffectivePrice(item.product)
    case None => EffectivePrice(p)
  }

  /** In a cart with unique ids, the lines matching `c[k]`'s id are exactly line `k`. */
  lemma UniqueIndex(c: Items, k: nat, id: string)
    requires UniqueIds(c) && k < |c| && c[k].product.id == id
    ensures forall i :: 0 <= i < |c| && c[i].product.id == id ==> i == k
  {
  }

  lemma FindIndex(c: Items, id: string) returns (k: nat)
    requires HasId(c, id) && UniqueIds(c)
    ensures k < |c| && c[k].product.id == id && Find(c, id) == Some(c[k])
  {
    k :| k < |c| && c[k].product.id == id;
    var x := Find(c, id).value;
    var j :| 0 <= j < |c| && c[j] == x;
    UniqueIndex(c, k, id);
  }

  /** With unique ids, adding to an existing line rewrites that one line only. */
  lemma AddToExisting(c: Items, p: Product, q: int, k: nat)
    requires UniqueIds(c) && k < |c| && c[k].product.id == p.id
    ensures AddToCart(c, p, q) == c[k := c[k].(quantity := c[k].quantity + q)]
  {
    UniqueIndex(c, k, p.id);
  }

  lemma LineTotalAdd(i: CartItem, q: int)
    ensures LineTotal(i.(quantity := i.quantity + q)) == LineTotal(i) + q * EffectivePrice(i.product)
  {
    var e := EffectivePrice(i.product);
    assert e * (i.quantity + q) == e * i.quantity + e * q;
  }

  lemma AddExistingSums(c: Items, p: Product, q: int, k: nat)
    requires UniqueIds(c) && k < |c| && c[k].product.id == p.id
    ensures Sum(AddToCart(c, p, q), Quantity) == Sum(c, Quantity) + q
    ensures Sum(AddToCart(c, p, q), LineTotal) == Sum(c, LineTotal) + q * EffectivePrice(c[k].product)
  {
    AddToExisting(c, p, q, k);
    BumpSums(c, k, q);
  }

  /** Raising line `k` by `q` units raises the count by `q` and the total by `q` unit prices. */
  lemma BumpSums(c: Items, k: nat, q: int)
    requires k < |c|
    ensures Sum(c[k := c[k].(quantity := c[k].quantity + q)], Quantity) == Sum(c, Quantity) + q
    ensures Sum(c[k := c[k].(quantity := c[k].quantity + q)], LineTotal)
         == Sum(c, LineTotal) + q * EffectivePrice(c[k].product)
  {
    var y := c[k].(quantity := c[k].quantity + q);
    SumReplace(c, k, y, Quantity);
    SumReplace(c, k, y, LineTotal);
    LineTotalAdd(c[k], q);
  }

  lemma AddNewSums(c: Items, p: Product, q: int)
    requires !HasId(c, p.id)
    ensures Sum(AddToCart(c, p, q), Quantity) == Sum(c, Quantity) + q
    ensures Sum(AddToCart(c, p, q), LineTotal) == Sum(c, LineTotal) + q * EffectivePrice(p)
  {
    SumAppend(c, [CartItem(p, q)], Quantity);
    SumAppend(c, [CartItem(p, q)], LineTotal);
  }

  /**
   Adding `q` units raises the item count by exactly `q` and the price total
   by `q` times the unit price of the line that receives them.
   */
  lemma AddToCartTotals(c: Items, p: Product, q: int)
    requires UniqueIds(c)
    ensures TotalItems(AddToCart(c, p, q)) == TotalItems(c) + q
    ensures TotalPrice(AddToCart(c, p, q)) == TotalPrice(c) + q * UnitPriceFor(c, p)
  {
    if HasId(c, p.id) {
      var k := FindIndex(c, p.id);
      AddExistingSums(c, p, q, k);
    } else {
      AddNewSums(c, p, q);
    }
  }

  /** The line for `p` ends up holding exactly `q` more units than before (none before when absent). */
  lemma AddToCartQuantity(c: Items, p: Product, q: int)
    requires UniqueIds(c)
    ensures QuantityOf(AddToCart(c, p, q), p.id) == QuantityOf(c, p.id) + q
  {
    var r := AddToCart(c, p, q);
    AddToCartKeepsUnique(c, p, q);
    var j := FindIndex(r, p.id);
    if HasId(c, p.id) {
      var k := FindIndex(c, p.id);
      AddToExisting(c, p, q, k);
      UniqueIndex(r, k, p.id);
    } else {
      assert r == c + [CartItem(p, q)];
      assert j == |c|;
    }
  }

  /** With unique ids, removing a present id deletes exactly its one line. */
  lemma RemoveAt(c: Items, id: string) returns (k: nat)
    requires UniqueIds(c) && HasId(c, id)
    ensures k < |c| && Find(c, id) == Some(c[k])
    ensures RemoveFromCart(c, id) == c[..k] + c[k + 1..]
  {
    k := FindIndex(c, id);
    UniqueIndex(c, k, id);
    FilterDropsOne(c, k, NotId(id));
  }

  /** Removing a line lowers the count and the total by exactly that line. */
  lemma RemoveFromCartTotals(c: Items, id: string)
    requires UniqueIds(c)
    ensures TotalItems(RemoveFromCart(c, id)) == TotalItems(c) - QuantityOf(c, id)
    ensures TotalPrice(RemoveFromCart(c, id)) == TotalPrice(c)
              - (if HasId(c, id) then LineTotal(Find(c, id).value) else 0)
  {
    if HasId(c, id) {
      var k := RemoveAt(c, id);
      SumRemove(c, k, Quantity);
      SumRemove(c, k, LineTotal);
    }
  }

  /** A positive update moves the count from the old quantity to the new one. */
  lemma UpdateQuantityTotals(c: Items, id: string, q: int)
    requires UniqueIds(c) && q > 0
    ensures TotalItems(UpdateQuantity(c, id, q))
         == TotalItems(c) - QuantityOf(c, id) + (if HasId(c, id) then q else 0)
  {
    var r := UpdateQuantity(c, id, q);
    if HasId(c, id) {
      var k := FindIndex(c, id);
      UniqueIndex(c, k, id);
      var y := c[k].(quantity := q);
      assert r == c[k := y];
      SumReplace(c, k, y, Quantity);
    } else {
      assert r == c;
    }
  }

  function SumQuantities(qs: seq<int>): int {
    if |qs| == 0 then 0 else qs[0] + SumQuantities(qs[1..])
  }

  /** `addToCart(p, q)` applied for each `q` of `qs` in turn. */
  function AddAll(c: Items, p: Product, qs: seq<int>): Items
    decreases |qs|
  {
    if |qs| == 0 then c else AddAll(AddToCart(c, p, qs[0]), p, qs[1..])
  }

  lemma AddToLast(c: Items, p: Product, acc: int, q: int)
    requires !HasId(c, p.id)
    ensures AddToCart(c + [CartItem(p, acc)], p, q) == c + [CartItem(p, acc + q)]
  {
    var c1 := c + [CartItem(p, acc)];
    assert c1[|c|].product.id == p.id;
    var r := AddToCart(c1, p, q);
    assert forall i :: 0 <= i < |c| ==> c1[i] == c[i];
    assert r[|c|] == CartItem(p, acc + q);
  }

  lemma {:induction false} AddAllToLast(c: Items, p: Product, acc: int, qs: seq<int>)
    requires !HasId(c, p.id)
    ensures AddAll(c + [CartItem(p, acc)], p, qs) == c + [CartItem(p, acc + SumQuantities(qs))]
    decreases |qs|
  {
    if |qs| > 0 {
      AddToLast(c, p, acc, qs[0]);
      AddAllToLast(c, p, acc + qs[0], qs[1..]);
      assert SumQuantities(qs) == qs[0] + SumQuantities(qs[1..]);
    }
  }

  /**
   Starting from a cart without `p`, successive adds of `p` leave the other
   lines untouched and exactly one line for `p`, at the end, whose quantity
   is the sum of the requested quantities.
   */
  lemma {:induction false} AddAllAccumulates(c: Items, p: Product, qs: seq<int>)
    requires !HasId(c, p.id) && |qs| > 0
    ensures AddAll(c, p, qs) == c + [CartItem(p, SumQuantities(qs))]
  {
    assert AddToCart(c, p, qs[0]) == c + [CartItem(p, qs[0])];
    AddAllToLast(c, p, qs[0], qs[1..]);
    assert SumQuantities(qs) == qs[0] + SumQuantities(qs[1..]);
  }

  // ------------------------------------------------ positive quantities

  /** A restored cart is as positive as the one that was saved. */
  lemma RestoreKeepsPositive(saved: Option<Items>)
    ensures saved.Some? && PositiveQuantities(saved.value) ==> PositiveQuantities(Restore(saved))
    ensures saved.None? ==> PositiveQuantities(Restore(saved))
  {
  }

  /** Adding at least one unit keeps every line positive. */
  lemma AddKeepsPositive(c: Items, p: Product, quantity: int)
    requires PositiveQuantities(c) && quantity >= 1
    ensures PositiveQuantities(AddToCart(c, p, quantity))
  {
    var r := AddToCart(c, p, quantity);
    if !HasId(c, p.id) {
      assert r == c + [CartItem(p, quantity)];
    }
  }

  lemma RemoveKeepsPositive(c: Items, id: string)
    requires PositiveQuantities(c)
    ensures PositiveQuantities(RemoveFromCart(c, id))
  {
    var r := RemoveFromCart(c, id);
    forall i | 0 <= i < |r|
      ensures r[i].quantity >= 1
    {
      var j :| 0 <= j < |c| && c[j] == r[i];
    }
  }

  /** Any update keeps every line positive: a quantity below one removes the line. */
  lemma UpdateKeepsPositive(c: Items, id: string, quantity: int)
    requires PositiveQuantities(c)
    ensures PositiveQuantities(UpdateQuantity(c, id, quantity))
  {
    if quantity <= 0 {
      RemoveKeepsPositive(c, id);
    }
  }

  /** The cart operations the pages can issue. */
  datatype Op = Add(product: Product, quantity: int) | Remove(id: string) | Update(id: string, quantity: int) | Clear

  function Apply(c: Items, op: Op): Items {
    match op
    case Add(p, q) => AddToCart(c, p, q)
    case Remove(id) => RemoveFromCart(c, id)
    case Update(id, q) => UpdateQuantity(c, id, q)
    case Clear => ClearCart()
  }

  function ApplyAll(c: Items, ops: seq<Op>): Items
    decreases |ops|
  {
    if |ops| == 0 then c else ApplyAll(Apply(c, ops[0]), ops[1..])
  }

  /** Every add asks for at least one unit, as the card (one) and the details stepper (at least one) do. */
  predicate AddsPositive(ops: seq<Op>) {
    forall i :: 0 <= i < |ops| ==> (ops[i].Add? ==> ops[i].quantity >= 1)
  }

  /** From a positive cart, any run of such operations leaves every line positive. */
  lemma {:induction false} OpsKeepPositive(c: Items, ops: seq<Op>)
    requires PositiveQuantities(c) && AddsPositive(ops)
    ensures PositiveQuantities(ApplyAll(c, ops))
    decreases |ops|
  {
    if |ops| > 0 {
      match ops[0] {
        case Add(p, q) => AddKeepsPositive(c, p, q);
        case Remove(id) => RemoveKeepsPositive(c, id);
        case Update(id, q) => UpdateKeepsPositive(c, id, q);
        case Clear =>
      }
      OpsKeepPositive(Apply(c, ops[0]), ops[1..]);
    }
  }

  // --------------------------------------------------------- across visits

  /**
   The cart at the end of a run of visits. Every change is written back to
   storage, so each visit starts from the cart the previous one ended with;
   the first starts from `saved`.
   */
  function AcrossVisits(saved: Option<Items>, visits: seq<seq<Op>>): Items
    decreases |visits|
  {
    if |visits| == 0 then Restore(saved)
    else AcrossVisits(Some(ApplyAll(Restore(saved), visits[0])), visits[1..])
  }

  /** From a positive saved cart, or none, any run of visits whose adds ask for at least one unit keeps every line positive. */
  lemma {:induction false} VisitsKeepPositive(saved: Option<Items>, visits: seq<seq<Op>>)
    requires saved.Some? ==> PositiveQuantities(saved.value)
    requires forall i :: 0 <= i < |visits| ==> AddsPositive(visits[i])
    ensures PositiveQuantities(AcrossVisits(saved, visits))
    decreases |visits|
  {
    RestoreKeepsPositive(saved);
    if |visits| > 0 {
      OpsKeepPositive(Restore(saved), visits[0]);
      VisitsKeepPositive(Some(ApplyAll(Restore(saved), visits[0])), visits[1..]);
    }
  }
}

=== FILE: catalog.dfy ===
/**
 The catalog pages: the shop listing (category filter, sort order and the
 category toggle kept in the URL), the product details page (loading,
 related products, the quantity stepper and its add button) and the
 product card (stock test, add button and price display).
 */
module Catalog {

  import opened Types
  import opened Seqs
  import Cart
  import Store

  // ---------------------------------------------------------------- shop

  function InCategory(cat: string): Product -> bool {
    (p: Product) => p.category == cat
  }

  /** `'All'` keeps every product; any other name keeps that category only. */
  function CategoryFilter(ps: seq<Product>, cat: string): (r: seq<Product>)
    ensures cat == "All" ==> r == ps
    ensures cat != "All" ==> forall i :: 0 <= i < |r| ==> r[i] in ps && r[i].category == cat
    ensures cat != "All" ==> forall i :: 0 <= i < |ps| && ps[i].category == cat ==> ps[i] in r
    ensures IsSubsequence(r, ps)
    ensures cat != "All" ==> forall x :: multiset(r)[x] == if x.category == cat then multiset(ps)[x] else 0
  {
    if cat == "All" then
      SubsequenceRefl(ps);
      ps
    else
      FilterIsSubsequence(ps, InCategory(cat));
      FilterCount(ps, InCategory(cat));
      Filter(ps, InCategory(cat))
  }

  /** The sort selector; any value other than the three sorting ones leaves the order alone. */
  datatype SortMode = Newest | PriceLow | PriceHigh | Rating

  function ParseSortMode(s: string): SortMode {
    if s == "price-low" then PriceLow
    else if s == "price-high" then PriceHigh
    else if s == "rating" then Rating
    else Newest
  }

  function PriceKey(p: Product): real {
    p.price as real
  }

  function PriceDescKey(p: Product): real {
    -(p.price as real)
  }

  function RatingDescKey(p: Product): real {
    -p.rating
  }

  /** The comparator of each sorting mode, as an ascending key. */
  function SortKey(mode: SortMode): Product -> real
    requires mode != Newest
  {
    match mode
    case PriceLow => PriceKey
    case PriceHigh => PriceDescKey
    case Rating => RatingDescKey
  }

  /**
   Orders the filtered list for the selected mode: list price up, list
   price down, rating down, or unchanged. Ties keep their order.
   */
  function Arrange(ps: seq<Product>, mode: SortMode): (r: seq<Product>)
    ensures multiset(r) == multiset(ps)
    ensures mode == Newest ==> r == ps
    ensures mode == PriceLow ==> forall i, j :: 0 <= i < j < |r| ==> r[i].price <= r[j].price
    ensures mode == PriceHigh ==> forall i, j :: 0 <= i < j < |r| ==> r[i].price >= r[j].price
    ensures mode == Rating ==> forall i, j :: 0 <= i < j < |r| ==> r[i].rating >= r[j].rating
  {
    if mode == Newest then ps
    else
      var r := SortBy(ps, SortKey(mode));
      assert forall i, j :: 0 <= i < j < |r| ==> SortKey(mode)(r[i]) <= SortKey(mode)(r[j]);
      r
  }

  /** Sorting is stable: products that tie under the mode's comparator keep their relative order. */
  lemma ArrangeStable(ps: seq<Product>, mode: SortMode, k: real)
    requires mode != Newest
    ensures Filter(Arrange(ps, mode), KeyIs(SortKey(mode), k)) == Filter(ps, KeyIs(SortKey(mode), k))
  {
    SortByStable(ps, SortKey(mode), k);
  }

  /** The product grid for a category and a sort selection. */
  function ShopView(ps: seq<Product>, cat: string, sortBy: string): (r: seq<Product>)
    ensures multiset(r) == multiset(CategoryFilter(ps, cat))
    ensures cat != "All" ==> forall i :: 0 <= i < |r| ==> r[i].category == cat
    ensures ParseSortMode(sortBy) == Newest ==> r == CategoryFilter(ps, cat)
  {
    var r := Arrange(CategoryFilter(ps, cat), ParseSortMode(sortBy));
    assert forall i :: 0 <= i < |r| ==> r[i] in multiset(CategoryFilter(ps, cat));
    r
  }

  /** The category shown when the page opens: the `category` URL parameter if non-empty, else `'All'`. */
  function InitialCategory(param: Option<string>): (r: string)
    ensures param.Some? && param.value != "" ==> r == param.value
    ensures param.None? || param.value == "" ==> r == "All"
  {
    if param.Some? then OrElse(param.value, "All") else "All"
  }

  /**
   Clicking a category: clicking the selected one goes back to `'All'`,
   any other becomes selected. The URL carries the selection unless it is `'All'`.
   */
  function ToggleCategory(selected: string, cat: string): (r: (string, map<string, string>))
    ensures selected == cat ==> r.0 == "All"
    ensures selected != cat ==> r.0 == cat
    ensures r.1 == map[] <==> r.0 == "All"
    ensures r.0 != "All" ==> r.1 == map["category" := r.0]
  {
    var newCat := if selected == cat then "All" else cat;
    if newCat == "All" then (newCat, map[])
    else
      assert "category" in map["category" := newCat];
      (newCat, map["category" := newCat])
  }

  function Param(params: map<string, string>, key: string): Option<string> {
    if key in params then Some(params[key]) else None
  }

  /** Reopening the page from the URL a toggle wrote selects the same category. */
  lemma ToggleSurvivesReload(selected: string, cat: string)
    requires cat != ""
    ensures InitialCategory(Param(ToggleCategory(selected, cat).1, "category")) == ToggleCategory(selected, cat).0
  {
  }

  /**
   The "Clear All", "All Categories" and "Show All Products" buttons select
   `'All'` but leave the URL parameters as they were, so reopening the page
   selects whatever category the URL still names.
   */
  function ClearAll(params: map<string, string>): (r: (string, map<string, string>))
    ensures r.0 == "All"
    ensures InitialCategory(Param(r.1, "category")) == InitialCategory(Param(params, "category"))
  {
    ("All", params)
  }

  /** Selecting Fashion by a click, then clearing: a reload selects Fashion again, not `'All'`. */
  lemma ClearAllLostOnReload()
    ensures ClearAll(ToggleCategory("All", "Fashion").1).0 == "All"
    ensures InitialCategory(Param(ClearAll(ToggleCategory("All", "Fashion").1).1, "category")) == "Fashion"
  {
  }

  /**
   Clearing as a click on the selected category does: the URL loses its
   parameters too, so a reload keeps `'All'`.
   */
  function ClearAllFresh(selected: string): (r: (string, map<string, string>))
    ensures r == ToggleCategory(selected, selected)
    ensures r.0 == "All" && InitialCategory(Param(r.1, "category")) == r.0
  {
    ("All", map[])
  }

  // ------------------------------------------------------- product details

  function RelatedTo(p: Product): Product -> bool {
    (item: Product) => item.category == p.category && item.id != p.id
  }

  function Min(a: int, b: int): int {
    if a <= b then a else b
  }

  /**
   Up to four products from the in-memory seed catalog in `p`'s category,
   other than `p` itself, taken in catalog order.
   */
  function Related(seed: seq<Product>, p: Product): (r: seq<Product>)
    ensures |r| == Min(4, |Filter(seed, RelatedTo(p))|)
    ensures r == Filter(seed, RelatedTo(p))[..|r|]
    ensures |r| <= 4
    ensures forall i :: 0 <= i < |r| ==> r[i] in seed && r[i].category == p.category && r[i].id != p.id
    ensures |r| < 4 ==> forall i :: 0 <= i < |seed| && seed[i].category == p.category && seed[i].id != p.id
                                  ==> seed[i] in r
    ensures IsSubsequence(r, seed)
  {
    var all := Filter(seed, RelatedTo(p));
    var r := all[..Min(4, |all|)];
    assert forall i :: 0 <= i < |r| ==> r[i] == all[i];
    PrefixIsSubsequence(all, Min(4, |all|));
    FilterIsSubsequence(seed, RelatedTo(p));
    SubsequenceTrans(r, all, seed);
    r
  }

  /** What the details page holds: the product (if found), related products, and the loading flag. */
  datatype Details = Details(product: Option<Product>, related: seq<Product>, loading: bool)

  const InitialDetails := Details(None, [], true)

  /**
   Loading the page for route parameter `id`. A found product and its
   related products replace what was shown; an unknown id only ends loading,
   so the page keeps whatever it showed before.
   */
  function Load(d: Details, st: Store.Storage, seed: seq<Product>, id: string): (r: Details)
    ensures id == "" ==> r == d
    ensures id != "" ==> !r.loading
    ensures id != "" && Store.GetProductById(st, seed, id).Some? ==>
      && r.product == Store.GetProductById(st, seed, id) && r.product.value.id == id
      && r.product.value in Store.GetProducts(st, seed)
      && r.related == Related(seed, r.product.value)
    ensures id != "" && Store.GetProductById(st, seed, id).None? ==> r == d.(loading := false)
  {
    if id == "" then d
    else
      match Store.GetProductById(st, seed, id)
      case Some(p) => Details(Some(p), Related(seed, p), false)
      case None => d.(loading := false)
  }

  /** On a fresh page, an unknown id shows "not found": no product and no spinner. */
  lemma UnknownIdNotFound(st: Store.Storage, seed: seq<Product>, id: string)
    requires id != ""
    requires forall i :: 0 <= i < |Store.GetProducts(st, seed)| ==> Store.GetProducts(st, seed)[i].id != id
    ensures Load(InitialDetails, st, seed, id) == Details(None, [], false)
  {
  }

  /** The quantity stepper: decrement stops at 1, increment adds 1. */
  function Decrement(q: int): (r: int)
    ensures r >= 1
    ensures q > 1 ==> r == q - 1
    ensures q <= 1 ==> r == 1
  {
    if q - 1 > 1 then q - 1 else 1
  }

  function Increment(q: int): int {
    q + 1
  }

  datatype Step = Dec | Inc

  /** The stepper's value after a sequence of clicks. */
  function Run(q: int, steps: seq<Step>): int
    decreases |steps|
  {
    if |steps| == 0 then q
    else Run(if steps[0] == Dec then Decrement(q) else Increment(q), steps[1..])
  }

  /** Starting from 1, no sequence of clicks takes the quantity below 1 or above 1 plus the click count. */
  lemma {:induction false} RunStaysPositive(q: int, steps: seq<Step>)
    requires q >= 1
    ensures 1 <= Run(q, steps) <= q + |steps|
    decreases |steps|
  {
    if |steps| > 0 {
      RunStaysPositive(if steps[0] == Dec then Decrement(q) else Increment(q), steps[1..]);
    }
  }

  /** The details page's add button: disabled at zero stock, otherwise adds the chosen quantity. */
  function DetailsAdd(c: Cart.Items, p: Product, quantity: int): (r: Cart.Items)
    ensures p.stock == 0 ==> r == c
    ensures p.stock != 0 ==> r == Cart.AddToCart(c, p, quantity)
    ensures p.stock != 0 && Cart.UniqueIds(c) ==>
      && Cart.UniqueIds(r)
      && Cart.QuantityOf(r, p.id) == Cart.QuantityOf(c, p.id) + quantity
      && Cart.TotalItems(r) == Cart.TotalItems(c) + quantity
  {
    if p.stock == 0 then c
    else
      AddCounts(c, p, quantity);
      Cart.AddToCart(c, p, quantity)
  }

  lemma AddCounts(c: Cart.Items, p: Product, quantity: int)
    ensures Cart.UniqueIds(c) ==> Cart.UniqueIds(Cart.AddToCart(c, p, quantity))
    ensures Cart.UniqueIds(c) ==> Cart.TotalItems(Cart.AddToCart(c, p, quantity)) == Cart.TotalItems(c) + quantity
    ensures Cart.UniqueIds(c) ==> Cart.QuantityOf(Cart.AddToCart(c, p, quantity), p.id) == Cart.QuantityOf(c, p.id) + quantity
  {
    if Cart.UniqueIds(c) {
      Cart.AddToCartKeepsUnique(c, p, quantity);
      Cart.AddToCartQuantity(c, p, quantity);
      Cart.AddToCartTotals(c, p, quantity);
    }
  }

  /**
   The "Save ৳n" label, shown (with the list price struck through) only when
   the discount price is truthy. The large price on the details page and on
   the card is `EffectivePrice`.
   */
  function Savings(p: Product): (r: Option<int>)
    ensures r.Some? <==> HasDiscount(p)
    ensures r.Some? ==> EffectivePrice(p) + r.value == p.price
  {
    if HasDiscount(p) then Some(p.price - p.discountPrice.value) else None
  }

  // ---------------------------------------------------------- product card

  /** Only a stock of exactly zero counts as out of stock. */
  predicate IsOutOfStock(p: Product) {
    p.stock == 0
  }

  /** The card's add button: one unit when in stock, nothing otherwise. */
  function CardClick(c: Cart.Items, p: Product): (r: Cart.Items)
    ensures r == c <==> IsOutOfStock(p)
    ensures !IsOutOfStock(p) ==> r == DetailsAdd(c, p, 1)
    ensures !IsOutOfStock(p) && Cart.UniqueIds(c) ==> Cart.TotalItems(r) == Cart.TotalItems(c) + 1
  {
    if IsOutOfStock(p) then c else Cart.AddToCart(c, p)
  }

  // -------------------------------------------------------------- findings

  /** A product with only an id, a list price, an optional discount price and stock. */
  function Sample(id: string, price: int, discountPrice: Option<int>): Product {
    Product(id, "", price, discountPrice, "", "", [], "", "", false, 0.0, 0, 1, map[])
  }

  /**
   The "price low to high" order compares list prices, while the grid shows
   the discount price: a discounted product can follow a cheaper-looking one.
   */
  lemma PriceLowIgnoresDiscount()
    ensures var a := Sample("a", 3200, Some(2800));
            var b := Sample("b", 3000, None);
            && Arrange([a, b], PriceLow) == [b, a]
            && EffectivePrice(b) > EffectivePrice(a)
  {
    var a := Sample("a", 3200, Some(2800));
    var b := Sample("b", 3000, None);
    assert EffectivePrice(a) == 2800 && EffectivePrice(b) == 3000;
    assert [a, b][1..] == [b];
    assert SortBy([b], PriceKey) == Insert(b, [], PriceKey) == [b];
    assert Insert(a, [b], PriceKey) == [b] + Insert(a, [], PriceKey);
  }

  function ShownPriceKey(p: Product): real {
    EffectivePrice(p) as real
  }

  /** The price order by the price the shopper sees. */
  function ArrangeByShownPrice(ps: seq<Product>): (r: seq<Product>)
    ensures multiset(r) == multiset(ps)
    ensures forall i, j :: 0 <= i < j < |r| ==> EffectivePrice(r[i]) <= EffectivePrice(r[j])
  {
    var r := SortBy(ps, ShownPriceKey);
    assert forall i, j :: 0 <= i < j < |r| ==> ShownPriceKey(r[i]) <= ShownPriceKey(r[j]);
    r
  }

  /**
   Opening an unknown id after a product was shown leaves that product on
   screen under the new address.
   */
  lemma UnknownIdKeepsStaleProduct(shown: Product, st: Store.Storage, seed: seq<Product>, id: string)
    requires id != "" && shown.id != id
    requires forall i :: 0 <= i < |Store.GetProducts(st, seed)| ==> Store.GetProducts(st, seed)[i].id != id
    ensures var r := Load(Details(Some(shown), [], true), st, seed, id);
            r.product == Some(shown) && r.product.value.id != id && !r.loading
  {
  }

  /** Loading that forgets the previous product: the page shows exactly the product with this id, or none. */
  function LoadFresh(d: Details, st: Store.Storage, seed: seq<Product>, id: string): (r: Details)
    ensures id == "" ==> r == d
    ensures id != "" ==> !r.loading && r.product == Store.GetProductById(st, seed, id)
    ensures id != "" ==> (r.product.Some? <==> exists i :: 0 <= i < |Store.GetProducts(st, seed)|
                                                   && Store.GetProducts(st, seed)[i].id == id)
    ensures r.product.Some? && id != "" ==> r.product.value.id == id
    ensures id != "" && r.product.None? ==> r.related == []
  {
    if id == "" then d
    else
      match Store.GetProductById(st, seed, id)
      case Some(p) => Details(Some(p), Related(seed, p), false)
      case None => Details(None, [], false)
  }
}

=== FILE: checkout.dfy ===
/**
 The checkout page: the delivery form, the order draft assembled from the
 cart, the signed-in user and the form, and the submit step that stores
 the order and clears the cart only once the store has accepted it.
 */
module Checkout {

  import opened Types
  import Cart
  import Store

  /** The flat delivery charge shown on the page (and not put into the order). */
  const DeliveryCharge: int := 60

  datatype FormData = FormData(
    name: string,
    phone: string,
    district: string,
    address: string,
    paymentMethod: string
  )

  /** The form as the page opens: the user's name if signed in, Dhaka, cash on delivery. */
  function InitialForm(user: Option<User>): (f: FormData)
    ensures user.None? ==> f.name == ""
    ensures user.Some? ==> f.name == user.value.name
    ensures f.phone == "" && f.address == ""
    ensures f.district == "Dhaka" && f.paymentMethod == "cod"
  {
    FormData(if user.Some? then OrElse(user.value.name, "") else "", "", "Dhaka", "", "cod")
  }

  /** `user?.id || 'guest'` and `user?.email || 'guest@example.com'`. */
  function UserIdOf(user: Option<User>): string {
    if user.Some? then OrElse(user.value.id, "guest") else "guest"
  }

  function EmailOf(user: Option<User>): string {
    if user.Some? then OrElse(user.value.email, "guest@example.com") else "guest@example.com"
  }

  /**
   The order the page submits, or `None` for an empty cart. The vendor is
   the first line's vendor; the total is the cart total without delivery.
   */
  function Draft(cart: Cart.Items, user: Option<User>, form: FormData): (r: Option<Store.OrderDraft>)
    ensures r.None? <==> |cart| == 0
    ensures r.Some? ==> r.value.items == cart && r.value.vendorId == cart[0].product.vendorId
    ensures r.Some? ==> r.value.total == Cart.TotalPrice(cart)
    ensures r.Some? && user.Some? && user.value.id != "" ==> r.value.userId == user.value.id
    ensures r.Some? && (user.None? || user.value.id == "") ==> r.value.userId == "guest"
    ensures r.Some? && user.Some? && user.value.email != "" ==> r.value.customer.email == user.value.email
    ensures r.Some? && (user.None? || user.value.email == "") ==> r.value.customer.email == "guest@example.com"
    ensures r.Some? ==> r.value.customer.name == form.name && r.value.customer.phone == form.phone
    ensures r.Some? ==> r.value.customer.address == form.address + ", " + form.district
  {
    if |cart| == 0 then None
    else
      Some(Store.OrderDraft(
        UserIdOf(user),
        cart[0].product.vendorId,
        cart,
        Cart.TotalPrice(cart),
        Customer(form.name, EmailOf(user), form.phone, form.address + ", " + form.district)))
  }

  /** The amount shown as the total to pay: the subtotal plus the delivery charge. */
  function GrandTotal(cart: Cart.Items): (r: int)
    ensures |cart| == 0 ==> r == DeliveryCharge
    ensures Cart.NonNegativeLines(cart) ==> r >= DeliveryCharge
  {
    Cart.TotalPrice(cart) + DeliveryCharge
  }

  /** The stored order total is the displayed total minus the delivery charge. */
  lemma OrderTotalExcludesDelivery(cart: Cart.Items, user: Option<User>, form: FormData)
    requires |cart| > 0
    ensures Draft(cart, user, form).value.total == GrandTotal(cart) - DeliveryCharge
  {
  }

  /** How the store call ends: with a random draw and a timestamp, or rejected. */
  datatype Reply = Created(draw: real, createdAt: string) | Failed

  predicate ValidReply(reply: Reply) {
    reply.Created? ==> 0.0 <= reply.draw < 1.0
  }

  /** The state submit acts on: the store, the cart and the page's success flag. */
  datatype Page = Page(store: Store.Storage, cart: Cart.Items, success: bool)

  /**
   Submitting the form. An empty cart does nothing. Otherwise the order is
   created; only when the store accepts it is the cart cleared and the
   success view shown, and a rejection leaves store and cart as they were.
   */
  function Submit(p: Page, user: Option<User>, form: FormData, reply: Reply): (r: Page)
    requires ValidReply(reply)
    ensures |p.cart| == 0 ==> r == p
    ensures reply.Failed? ==> r == p
    ensures r.cart == p.cart || r.cart == []
    ensures r.cart != p.cart ==> r.success && |Store.Orders(r.store)| == |Store.Orders(p.store)| + 1
    ensures |p.cart| > 0 && reply.Created? ==>
      && r.cart == [] && r.success
      && r.store.products == p.store.products
      && |Store.Orders(r.store)| == |Store.Orders(p.store)| + 1
      && Store.Orders(r.store)[..|Store.Orders(p.store)|] == Store.Orders(p.store)
  {
    match Draft(p.cart, user, form)
    case None => p
    case Some(d) =>
      match reply
      case Failed => p
      case Created(draw, createdAt) =>
        var (st1, _) := Store.CreateOrder(p.store, d, draw, createdAt);
        Page(st1, Cart.ClearCart(), true)
  }

  /** The order a successful submit stored: it is the last one. */
  function Placed(p: Page, user: Option<User>, form: FormData, reply: Reply): Order
    requires ValidReply(reply) && |p.cart| > 0 && reply.Created?
  {
    Store.CreateOrder(p.store, Draft(p.cart, user, form).value, reply.draw, reply.createdAt).1
  }

  /**
   A successful checkout stores, as the last order, a PENDING order carrying
   the cart lines and the cart total, which the signed-in shopper then sees
   among their own orders, after the ones they saw before.
   */
  lemma CheckoutPlacesOrder(p: Page, u: User, form: FormData, reply: Reply)
    requires ValidReply(reply) && |p.cart| > 0 && reply.Created?
    requires u.id != ""
    ensures var r := Submit(p, Some(u), form, reply);
            var o := Placed(p, Some(u), form, reply);
            && Store.Orders(r.store) == Store.Orders(p.store) + [o]
            && o.items == p.cart && o.total == Cart.TotalPrice(p.cart)
            && o.status == PENDING && o.userId == u.id
            && Store.GetOrders(r.store, USER, u.id) == Store.GetOrders(p.store, USER, u.id) + [o]
  {
    var d := Draft(p.cart, Some(u), form).value;
    Store.CreateOrderViews(p.store, d, reply.draw, reply.createdAt, USER, u.id);
  }

  /** The vendor of the first cart line sees a successful checkout's order. */
  lemma FirstVendorSeesOrder(p: Page, user: Option<User>, form: FormData, reply: Reply)
    requires ValidReply(reply) && |p.cart| > 0 && reply.Created?
    ensures var r := Submit(p, user, form, reply);
            Placed(p, user, form, reply) in Store.GetOrders(r.store, VENDOR, p.cart[0].product.vendorId)
  {
    var r := Submit(p, user, form, reply);
    var o := Placed(p, user, form, reply);
    var v := p.cart[0].product.vendorId;
    assert o.items[0].product.vendorId == v;
    assert Store.HasVendorItem(o, v);
    var os := Store.Orders(r.store);
    assert os[|os| - 1] == o;
  }
}

=== FILE: decimal.dfy ===
/**
 Decimal rendering of non-negative integers, as JavaScript's template
 literals print them (`${n}` for a whole number), and its inverse. Used for
 the generated identifiers `ORD-<n>` and `extra-<i>`.
 */
module Decimal {

  function DigitChar(d: nat): (c: char)
    requires d < 10
    ensures '0' <= c <= '9'
  {
    (d + 48) as char
  }

  function DigitValue(c: char): nat
    requires '0' <= c <= '9'
  {
    (c as int - 48) as nat
  }

  predicate IsDigits(s: string) {
    forall i :: 0 <= i < |s| ==> '0' <= s[i] <= '9'
  }

  /** Shortest decimal form of `n`, with no leading zero. */
  function Show(n: nat): (s: string)
    ensures IsDigits(s)
    ensures |s| >= 1
    decreases n
  {
    if n < 10 then [DigitChar(n)] else Show(n / 10) + [DigitChar(n % 10)]
  }

  /** Reads a string of decimal digits. */
  function Parse(s: string): nat
    requires IsDigits(s)
  {
    if |s| == 0 then 0 else Parse(s[..|s| - 1]) * 10 + DigitValue(s[|s| - 1])
  }

  /** Parsing undoes rendering. */
  lemma {:induction false} ParseShow(n: nat)
    ensures Parse(Show(n)) == n
    decreases n
  {
    if n >= 10 {
      var s := Show(n);
      assert s[..|s| - 1] == Show(n / 10);
      ParseShow(n / 10);
    }
  }

  /** Distinct numbers render to distinct strings. */
  lemma ShowInjective(m: nat, n: nat)
    requires Show(m) == Show(n)
    ensures m == n
  {
    ParseShow(m);
    ParseShow(n);
  }

  /** Two strings with a common prefix are equal only if their remainders are. */
  lemma PrefixCancel(p: string, a: string, b: string)
    requires p + a == p + b
    ensures a == b
  {
    assert a == (p + a)[|p|..];
    assert b == (p + b)[|p|..];
  }
}

=== FILE: routing.dfy ===
/**
 Navigation decisions: the route guard in front of the dashboards and the
 checkout, the table of guarded routes, where the login form sends a
 signed-in user, the navigation bar's dashboard link and its cart badge.
 */
module Routing {

  import opened Types
  import Session
  import Cart

  /** What a guarded route shows: a spinner, a redirect, or the page itself. */
  datatype Outcome = Spinner | Redirect(to: string) | Render

  /**
   How the route table treats a path: a page anyone may open, a page behind
   the guard (with an optional role list), or a path no route matches, which
   the catch-all route sends to `/`.
   */
  datatype Access = Public | Protected(roles: Option<seq<Role>>) | Unmatched

  /** The dashboard the guard sends a user of the wrong role to. */
  function RoleHome(role: Role): string {
    match role
    case ADMIN => "/admin"
    case VENDOR => "/vendor"
    case _ => "/dashboard"
  }

  /**
   The route guard. It waits while the session loads, sends anonymous
   visitors to the login page, and sends users whose role is not listed to
   their own dashboard; without a role list any signed-in user passes.
   */
  function Guard(isLoading: bool, user: Option<User>, roles: Option<seq<Role>>): (r: Outcome)
    ensures isLoading ==> r == Spinner
    ensures !isLoading && user.None? ==> r == Redirect("/login")
    ensures r == Render <==> !isLoading && user.Some? && (roles.None? || user.value.role in roles.value)
    ensures r.Redirect? && user.Some? ==> r.to == RoleHome(user.value.role)
  {
    if isLoading then Spinner
    else if user.None? then Redirect("/login")
    else if roles.Some? && user.value.role !in roles.value then Redirect(RoleHome(user.value.role))
    else Render
  }

  /** The pages every visitor may open, apart from the product pages. */
  const OpenPages: set<string> := {
    "/", "/shop", "/cart", "/login", "/register", "/about-us", "/privacy-policy",
    "/terms-conditions", "/help-center", "/how-to-buy", "/returns-refunds",
    "/contact-us", "/affiliate-program", "/sell-on-tracketo"
  }

  /** The guarded pages. */
  const GuardedPages: set<string> := {"/admin", "/vendor", "/dashboard", "/checkout"}

  /** `/product/:id`: the prefix followed by one non-empty path segment. */
  predicate IsProductPath(path: string) {
    |path| > 9 && path[..9] == "/product/" && '/' !in path[9..]
  }

  /** The route table of the application. */
  function RouteAccess(path: string): (r: Access)
    ensures path == "/admin" <==> r == Protected(Some([ADMIN]))
    ensures path == "/vendor" <==> r == Protected(Some([VENDOR]))
    ensures path == "/dashboard" <==> r == Protected(Some([USER]))
    ensures path == "/checkout" <==> r == Protected(None)
    ensures r.Public? <==> path in OpenPages || IsProductPath(path)
    ensures r.Unmatched? <==> path !in GuardedPages && path !in OpenPages && !IsProductPath(path)
  {
    if path == "/admin" then Protected(Some([ADMIN]))
    else if path == "/vendor" then Protected(Some([VENDOR]))
    else if path == "/dashboard" then
      assert path[..9][1] != "/product/"[1];
      Protected(Some([USER]))
    else if path == "/checkout" then Protected(None)
    else if path in OpenPages || IsProductPath(path) then Public
    else Unmatched
  }

  /** The outcome of opening `path` in a given session state. */
  function Visit(path: string, isLoading: bool, user: Option<User>): (r: Outcome)
    ensures path in OpenPages || IsProductPath(path) ==> r == Render
    ensures path == "/admin" ==> r == Guard(isLoading, user, Some([ADMIN]))
    ensures path == "/vendor" ==> r == Guard(isLoading, user, Some([VENDOR]))
    ensures path == "/dashboard" ==> r == Guard(isLoading, user, Some([USER]))
    ensures path == "/checkout" ==> r == Guard(isLoading, user, None)
    ensures r == Redirect("/") <==> RouteAccess(path).Unmatched?
  {
    match RouteAccess(path)
    case Public => Render
    case Protected(roles) => Guard(isLoading, user, roles)
    case Unmatched => Redirect("/")
  }

  /**
   A path is sent to the home page exactly when no route matches it: the
   guard itself never redirects there.
   */
  lemma UnmatchedGoesHome(path: string, isLoading: bool, user: Option<User>)
    ensures Visit(path, isLoading, user) == Redirect("/")
        <==> path !in GuardedPages && path !in OpenPages && !IsProductPath(path)
  {
    var a := RouteAccess(path);
    if a.Protected? {
      var o := Guard(isLoading, user, a.roles);
      assert o.Redirect? ==> o.to == "/login" || (user.Some? && o.to == RoleHome(user.value.role));
    }
  }

  /** A user's own dashboard route lists that user's role (GUEST excepted). */
  lemma RoleHomeAdmitsRole(role: Role)
    requires role != GUEST
    ensures RouteAccess(RoleHome(role)).Protected?
    ensures var roles := RouteAccess(RoleHome(role)).roles; roles.Some? && role in roles.value
  {
  }

  /**
   No redirect loops for signed-in USER, VENDOR and ADMIN users or for
   anonymous visitors: wherever the guard redirects, the target renders.
   */
  lemma NoRedirectLoop(path: string, user: Option<User>)
    requires user.Some? ==> user.value.role != GUEST
    ensures Visit(path, false, user).Redirect? ==> Visit(Visit(path, false, user).to, false, user) == Render
  {
    if Visit(path, false, user).Redirect? && user.Some? {
      RoleHomeAdmitsRole(user.value.role);
    }
  }

  /** A GUEST user is sent to `/dashboard`, which sends a GUEST to `/dashboard` again. */
  lemma GuestRedirectLoops(u: User)
    requires u.role == GUEST
    ensures Visit("/dashboard", false, Some(u)) == Redirect("/dashboard")
    ensures Visit("/admin", false, Some(u)) == Redirect("/dashboard")
  {
  }

  /** The navigation bar's dashboard link. */
  function DashboardPath(user: Option<User>): (r: string)
    ensures user.None? ==> r == "/login"
    ensures user.Some? ==> r == RoleHome(user.value.role)
  {
    if user.None? then "/login"
    else if user.value.role == ADMIN then "/admin"
    else if user.value.role == VENDOR then "/vendor"
    else "/dashboard"
  }

  /**
   The navigation bar links every signed-in user to the page the guard would
   send them to, and that page lets USER, VENDOR and ADMIN users in.
   */
  lemma DashboardPathAgreesWithGuard(user: Option<User>)
    ensures user.None? ==> Visit(DashboardPath(user), false, user) == Render
    ensures user.Some? && user.value.role != GUEST ==> Visit(DashboardPath(user), false, user) == Render
  {
    if user.Some? && user.value.role != GUEST {
      RoleHomeAdmitsRole(user.value.role);
    }
  }

  /** Where the login form navigates once a user is present; nowhere otherwise. */
  function AuthFormRedirect(user: Option<User>): (r: Option<string>)
    ensures r.None? <==> user.None?
    ensures r.Some? ==> r.value == DashboardPath(user) && r.value == RoleHome(user.value.role)
  {
    if user.None? then None
    else if user.value.role == ADMIN then Some("/admin")
    else if user.value.role == VENDOR then Some("/vendor")
    else Some("/dashboard")
  }

  /** Submitting the login form: nothing happens for an empty e-mail address. */
  function SubmitLogin(s: Session.AuthState, email: string, role: Role, id: string): (r: Session.AuthState)
    ensures email == "" ==> r == s
    ensures email != "" ==> r.user.Some? && r.user.value.email == email && r.user.value.role == role
    ensures email != "" ==> AuthFormRedirect(r.user) == Some(RoleHome(role))
  {
    if email == "" then s else Session.Login(s, email, role, id)
  }

  /**
   The cart badge in the navigation bar is shown when the item count is
   positive; with every line positive, that is exactly when the cart has a line.
   */
  function CartBadgeShown(c: Cart.Items): (r: bool)
    ensures r <==> Cart.TotalItems(c) > 0
    ensures Cart.PositiveQuantities(c) ==> (r <==> |c| > 0)
  {
    Cart.TotalItems(c) > 0
  }

  /**
   For a cart restored from a saved positive cart (or from nothing) and then
   changed by any run of page operations whose adds ask for at least one
   unit, the badge shows exactly when the cart has a line.
   */
  lemma BadgeShownIffCartNonEmpty(saved: Option<Cart.Items>, ops: seq<Cart.Op>)
    requires saved.Some? ==> Cart.PositiveQuantities(saved.value)
    requires Cart.AddsPositive(ops)
    ensures var c := Cart.ApplyAll(Cart.Restore(saved), ops);
            CartBadgeShown(c) <==> |c| > 0
  {
    Cart.RestoreKeepsPositive(saved);
    Cart.OpsKeepPositive(Cart.Restore(saved), ops);
  }

  /**
   In a browser that starts with no saved cart, after any run of visits whose
   adds ask for at least one unit, the badge shows exactly when the cart has a line.
   */
  lemma BadgeShownAcrossVisits(visits: seq<seq<Cart.Op>>)
    requires forall i :: 0 <= i < |visits| ==> Cart.AddsPositive(visits[i])
    ensures var c := Cart.AcrossVisits(None, visits);
            CartBadgeShown(c) <==> |c| > 0
  {
    Cart.VisitsKeepPositive(None, visits);
  }
}

=== FILE: seed.dfy ===
/**
 The built-in catalog: the six categories and the generated product list
 that seeds the store. Twenty-five hand-written items (ten fashion, ten
 grocery, five electronics) become products with random ids, ratings,
 review counts and stock; the list is then padded to 45 entries with
 copies of randomly chosen earlier entries under the ids `extra-<index>`.
 The random numbers are parameters here: each is a draw in [0, 1) as
 `Math.random()` returns, and each id suffix is an arbitrary string.
 */
module Seed {

  import opened Types
  import Decimal

  const Categories: seq<Category> := [
    Category("1", "Fashion", "👕"),
    Category("2", "Groceries", "🛒"),
    Category("3", "Electronics", "📱"),
    Category("4", "Home Decor", "🏠"),
    Category("5", "Beauty", "💄"),
    Category("6", "Health", "💊")
  ]

  /** The six categories have distinct ids, `'1'` to `'6'` in order. */
  lemma CategoriesWellFormed()
    ensures |Categories| == 6
    ensures forall i :: 0 <= i < 6 ==> Categories[i].id == [('1' as int + i) as char]
    ensures forall i, j :: 0 <= i < j < |Categories| ==> Categories[i].id != Categories[j].id
  {
    assert Categories[0].id == ['1'];
    assert Categories[5].id == ['6'];
  }

  /** One hand-written catalog entry; `photo` is the image id on the photo host. */
  datatype SeedItem = SeedItem(name: string, price: int, discount: Option<int>, photo: string)

  const FashionItems: seq<SeedItem> := [
    SeedItem("Aarong Premium Cotton Panjabi", 3200, Some(2800), "1621508650742-1e9d89998492"),
    SeedItem("Dhakai Jamdani Saree (Sky Blue)", 9500, None, "1610030469614-2f2f7f185622"),
    SeedItem("Traditional Tangail Silk Saree", 6500, Some(5800), "1617627143750-d86bc21e42bb"),
    SeedItem("Mens Slim Fit Chino Pant", 1450, None, "1473966968600-fa804b86820a"),
    SeedItem("Semi-Long Designer Panjabi", 2100, None, "1597983073453-ef90a472c792"),
    SeedItem("Handloom Cotton Lungi", 850, None, "1582533089852-02402220abd7"),
    SeedItem("Designer Polo Shirt (Black)", 950, None, "1521572163474-6864f9cf17ab"),
    SeedItem("Embroidery Salwar Kameez", 4200, None, "1583391733956-3750e0ff4e8b"),
    SeedItem("Classic Denim Jacket", 2400, None, "1551537482-f2075a1d41f2"),
    SeedItem("Silk Hijab Collection", 450, None, "1563200774-4f0144f8f3a3")
  ]

  const GroceryItems: seq<SeedItem> := [
    SeedItem("Radhuni Biryani Masala 40g", 45, None, "1589302168068-964664d93dc0"),
    SeedItem("Teer Soyabean Oil 5L", 820, None, "1474979266404-7eaacbcd87c5"),
    SeedItem("Fresh Miniket Rice 25kg", 1650, None, "1586201375761-83865001e31c"),
    SeedItem("Musur Dal (Premium) 1kg", 145, None, "1518013391915-e4435946320a"),
    SeedItem("PRAN Frooto Mango 1L", 95, None, "1546173159-315724a31696"),
    SeedItem("Ispahani Mirzapore Tea", 420, None, "1594631252845-29fc4cc8cde9"),
    SeedItem("Aarong Ghee 400g", 680, None, "1589927986089-35812388d1f4"),
    SeedItem("Molasses (Date Palm Gur)", 250, None, "1621996346565-e3dbc646d9a9"),
    SeedItem("Chanachur Mix 500g", 140, None, "1601050633647-8f8f5f3a07b7"),
    SeedItem("Banglar Mishti Roshogolla", 450, None, "1589113103503-4945391cadbb")
  ]

  const ElectronicsItems: seq<SeedItem> := [
    SeedItem("Walton Primo S8 Smartphone", 16500, None, "1511707171634-5f897ff02aa9"),
    SeedItem("Sony Bravia 43\" Smart TV", 48000, None, "1593359677879-a4bb92f829d1"),
    SeedItem("HP Core i5 Laptop", 62000, None, "1496181133206-80ce9b88a853"),
    SeedItem("Wireless Noise Canceling HP", 3500, None, "1505740420928-5e560c06d30e"),
    SeedItem("Gaming Mechanical Keyboard", 4200, None, "1511467687858-23d96c32e4ae")
  ]

  /** The random numbers one product consumes: the id suffix and three draws in [0, 1). */
  datatype Draw = Draw(idSuffix: string, rating: real, reviews: real, stock: real)

  predicate Unit(x: real) {
    0.0 <= x < 1.0
  }

  predicate ValidDraw(d: Draw) {
    Unit(d.rating) && Unit(d.reviews) && Unit(d.stock)
  }

  /** `Math.floor(draw * n)`: an index below `n`. */
  function Scale(draw: real, n: nat): (k: nat)
    requires Unit(draw) && n > 0
    ensures k < n
  {
    assert draw * (n as real) < n as real;
    (draw * (n as real)).Floor
  }

  function ImageUrl(photo: string): string {
    "https://images.unsplash.com/photo-" + photo + "?auto=format&fit=crop&q=80&w=600"
  }

  function Description(name: string): string {
    "High-quality " + name + " from Tracketo's verified merchants. "
    + "Authentic Bangladeshi product with nationwide delivery from Mohammadpur."
  }

  const Specifications: map<string, string> := map["Origin" := "Bangladesh", "Dispatch" := "Dhaka Mohammadpur"]

  /**
   A catalog entry as a product of category `cat`: fixed vendor, one image,
   rating in [4.2, 5), fewer than 500 reviews, stock from 20 to 49.
   */
  function MapToProduct(item: SeedItem, cat: string, d: Draw): (p: Product)
    requires ValidDraw(d)
    ensures p.id == "prod-" + d.idSuffix
    ensures p.name == item.name && p.price == item.price && p.discountPrice == item.discount
    ensures p.category == cat && p.images == [ImageUrl(item.photo)]
    ensures p.vendorId == "v-tracketo" && p.vendorName == "Bangla Direct" && p.vendorVerified
    ensures 4.2 <= p.rating < 5.0
    ensures 0 <= p.reviewsCount <= 499
    ensures 20 <= p.stock <= 49
  {
    Product(
      "prod-" + d.idSuffix,
      item.name,
      item.price,
      item.discount,
      Description(item.name),
      cat,
      [ImageUrl(item.photo)],
      "v-tracketo",
      "Bangla Direct",
      true,
      4.2 + d.rating * 0.8,
      Scale(d.reviews, 500),
      20 + Scale(d.stock, 30),
      Specifications)
  }

  /** The category name of the `i`-th item pushed: ten fashion, ten grocery, five electronics. */
  function CategoryOf(i: nat): string {
    if i < 10 then "Fashion" else if i < 20 then "Groceries" else "Electronics"
  }

  /** The `i`-th item pushed. */
  function ItemAt(i: nat): SeedItem
    requires i < 25
  {
    if i < 10 then FashionItems[i] else if i < 20 then GroceryItems[i - 10] else ElectronicsItems[i - 20]
  }

  /** A table whose only discounted entries are at the listed indexes, each discounted below its price. */
  predicate DiscountsExactlyAt(items: seq<SeedItem>, at: set<int>) {
    forall k :: 0 <= k < |items| ==>
      && (items[k].discount.Some? <==> k in at)
      && (items[k].discount.Some? ==> 0 < items[k].discount.value < items[k].price)
  }

  /** Only the cotton panjabi (item 0) and the silk saree (item 2) are discounted, each below its price. */
  lemma ItemsDiscounts()
    ensures forall i :: 0 <= i < 25 ==> (ItemAt(i).discount.Some? <==> i == 0 || i == 2)
    ensures forall i :: 0 <= i < 25 && ItemAt(i).discount.Some? ==> 0 < ItemAt(i).discount.value < ItemAt(i).price
  {
    assert DiscountsExactlyAt(FashionItems, {0, 2});
    assert DiscountsExactlyAt(GroceryItems, {});
    assert DiscountsExactlyAt(ElectronicsItems, {});
  }

  predicate ValidDraws(draws: seq<Draw>) {
    forall i :: 0 <= i < |draws| ==> ValidDraw(draws[i])
  }

  /** The `i`-th base product, built from the `i`-th item and its draw. */
  function BaseProduct(i: nat, d: Draw): (p: Product)
    requires i < 25 && ValidDraw(d)
    ensures p.category == CategoryOf(i) && p.id == "prod-" + d.idSuffix
    ensures p.price == ItemAt(i).price && p.discountPrice == ItemAt(i).discount
    ensures p.vendorId == "v-tracketo" && p.vendorName == "Bangla Direct" && p.vendorVerified
    ensures |p.images| == 1 && 20 <= p.stock <= 49 && 0 <= p.reviewsCount <= 499
  {
    MapToProduct(ItemAt(i), CategoryOf(i), d)
  }

  /** The 25 base products, one draw each. */
  function BaseProducts(draws: seq<Draw>): (r: seq<Product>)
    requires |draws| == 25 && ValidDraws(draws)
    ensures |r| == 25
    ensures forall i :: 0 <= i < 10 ==> r[i].category == "Fashion"
    ensures forall i :: 10 <= i < 20 ==> r[i].category == "Groceries"
    ensures forall i :: 20 <= i < 25 ==> r[i].category == "Electronics"
    ensures forall i :: 0 <= i < 25 ==> r[i].id == "prod-" + draws[i].idSuffix
    ensures forall i :: 0 <= i < 25 ==>
              && r[i].vendorId == "v-tracketo" && r[i].vendorName == "Bangla Direct" && r[i].vendorVerified
              && |r[i].images| == 1
              && 20 <= r[i].stock <= 49 && 0 <= r[i].reviewsCount <= 499
  {
    seq(25, i requires 0 <= i < 25 => BaseProduct(i, draws[i]))
  }

  /** Of the base products, only the first and the third carry a discount price, each below the list price. */
  lemma BaseDiscounts(draws: seq<Draw>)
    requires |draws| == 25 && ValidDraws(draws)
    ensures forall i :: 0 <= i < 25 ==> (BaseProducts(draws)[i].discountPrice.Some? <==> i == 0 || i == 2)
    ensures forall i :: 0 <= i < 25 && BaseProducts(draws)[i].discountPrice.Some? ==>
              0 < BaseProducts(draws)[i].discountPrice.value < BaseProducts(draws)[i].price
  {
    ItemsDiscounts();
    var r := BaseProducts(draws);
    assert forall i :: 0 <= i < 25 ==> r[i] == BaseProduct(i, draws[i]);
  }

  predicate IsCategoryName(name: string) {
    exists c :: 0 <= c < |Categories| && Categories[c].name == name
  }

  lemma CategoryOfListed(i: nat)
    ensures IsCategoryName(CategoryOf(i))
  {
    var c := if i < 10 then 0 else if i < 20 then 1 else 2;
    assert Categories[c].name == CategoryOf(i);
  }

  /** Every product category of the seed is the name of one of the six categories. */
  lemma SeedCategoriesListed(draws: seq<Draw>)
    requires |draws| == 25 && ValidDraws(draws)
    ensures forall i :: 0 <= i < 25 ==> IsCategoryName(BaseProducts(draws)[i].category)
  {
    forall i | 0 <= i < 25
      ensures IsCategoryName(BaseProducts(draws)[i].category)
    {
      CategoryOfListed(i);
    }
  }

  function ExtraId(i: nat): string {
    "extra-" + Decimal.Show(i)
  }

  /** Padding ids differ from each other and from every `prod-` id. */
  lemma ExtraIdsDistinct(i: nat, j: nat, suffix: string)
    ensures ExtraId(i) == ExtraId(j) ==> i == j
    ensures ExtraId(i) != "prod-" + suffix
  {
    if ExtraId(i) == ExtraId(j) {
      Decimal.PrefixCancel("extra-", Decimal.Show(i), Decimal.Show(j));
      Decimal.ShowInjective(i, j);
    }
    assert ExtraId(i)[0] == 'e';
    assert ("prod-" + suffix)[0] == 'p';
  }

  /** `q` is `p` under the id `id`: `{ ...p, id }`. */
  predicate CopyOf(q: Product, p: Product, id: string) {
    q == p.(id := id)
  }

  /** `q` is some entry of `ps` under the id `id`. */
  predicate CopyOfSome(q: Product, ps: seq<Product>, id: string) {
    exists k :: 0 <= k < |ps| && CopyOf(q, ps[k], id)
  }

  /**
   The padding invariant: the base products come first, and every later
   entry is a renamed copy of an earlier entry (`from`) and, through it, of
   a base product (`src`).
   */
  ghost predicate Padded(r: seq<Product>, base: seq<Product>, from: seq<nat>, src: seq<nat>) {
    && |base| == 25 <= |r| && |from| == |src| == |r|
    && r[..25] == base
    && (forall i :: 25 <= i < |r| ==> from[i] < i && CopyOf(r[i], r[from[i]], ExtraId(i)))
    && (forall i :: 0 <= i < |r| ==> src[i] < 25 && CopyOf(r[i], base[src[i]], r[i].id))
  }

  lemma PaddedInit(base: seq<Product>)
    requires |base| == 25
    ensures Padded(base, base, seq(25, i => i), seq(25, i => i))
  {
    assert forall i :: 0 <= i < 25 ==> CopyOf(base[i], base[i], base[i].id);
  }

  lemma PaddedStep(r: seq<Product>, base: seq<Product>, from: seq<nat>, src: seq<nat>, j: nat)
    requires Padded(r, base, from, src) && j < |r|
    ensures Padded(r + [r[j].(id := ExtraId(|r|))], base, from + [j], src + [src[j]])
  {
    var r' := r + [r[j].(id := ExtraId(|r|))];
    assert r'[..25] == r[..25];
    assert CopyOf(r'[|r|], base[src[j]], r'[|r|].id);
  }

  lemma PaddedDone(r: seq<Product>, base: seq<Product>, from: seq<nat>, src: seq<nat>)
    requires Padded(r, base, from, src)
    ensures forall i :: 25 <= i < |r| ==> r[i].id == ExtraId(i)
    ensures forall i :: 25 <= i < |r| ==> CopyOfSome(r[i], r[..i], ExtraId(i))
    ensures forall i :: 25 <= i < |r| ==> CopyOfSome(r[i], base, ExtraId(i))
  {
    forall i | 25 <= i < |r|
      ensures r[i].id == ExtraId(i)
      ensures CopyOfSome(r[i], r[..i], ExtraId(i))
      ensures CopyOfSome(r[i], base, ExtraId(i))
    {
      assert CopyOf(r[i], r[..i][from[i]], ExtraId(i));
      assert CopyOf(r[i], base[src[i]], ExtraId(i));
    }
  }

  /**
   The padding loop: appends copies of randomly picked earlier entries
   (padding entries included) under the id `extra-<index>` until there are
   45. `picks` holds the draws that choose the copied entry.
   */
  method Pad(base: seq<Product>, picks: seq<real>) returns (r: seq<Product>)
    requires |base| == 25
    requires |picks| >= 20 && forall k :: 0 <= k < |picks| ==> Unit(picks[k])
    ensures |r| == 45
    ensures r[..25] == base
    ensures forall i :: 25 <= i < 45 ==> r[i].id == ExtraId(i)
    ensures forall i :: 25 <= i < 45 ==> CopyOfSome(r[i], r[..i], ExtraId(i))
    ensures forall i :: 25 <= i < 45 ==> CopyOfSome(r[i], base, ExtraId(i))
  {
    r := base;
    // for each entry, the earlier entry it copies and the base product behind it
    ghost var from: seq<nat> := seq(25, i => i);
    ghost var src: seq<nat> := seq(25, i => i);
    PaddedInit(base);
    while |r| < 45
      invariant |r| <= 45 && Padded(r, base, from, src)
      decreases 45 - |r|
    {
      var j := Scale(picks[|r| - 25], |r|);
      PaddedStep(r, base, from, src, j);
      from := from + [j];
      src := src + [src[j]];
      r := r + [r[j].(id := ExtraId(|r|))];
    }
    PaddedDone(r, base, from, src);
  }

  /**
   The seed list: the 25 base products followed by 20 padding copies. Every
   padding id differs from every other id in the list.
   */
  method Generate(draws: seq<Draw>, picks: seq<real>) returns (r: seq<Product>)
    requires |draws| == 25 && ValidDraws(draws)
    requires |picks| >= 20 && forall k :: 0 <= k < |picks| ==> Unit(picks[k])
    ensures |r| == 45
    ensures r[..25] == BaseProducts(draws)
    ensures forall i :: 25 <= i < 45 ==> r[i].id == ExtraId(i)
    ensures forall i :: 25 <= i < 45 ==> CopyOfSome(r[i], r[..25], ExtraId(i))
    ensures forall i, j :: 0 <= i < j < 45 && 25 <= j ==> r[i].id != r[j].id
  {
    var base := BaseProducts(draws);
    r := Pad(base, picks);
    forall i, j | 0 <= i < j < 45 && 25 <= j
      ensures r[i].id != r[j].id
    {
      if i < 25 {
        assert r[i] == r[..25][i];
        ExtraIdsDistinct(j, j, draws[i].idSuffix);
      } else {
        ExtraIdsDistinct(i, j, "");
      }
    }
  }
}

=== FILE: seqs.dfy ===
/**
 Sequence helpers shared by the stores and views: order-preserving filter
 (`Array.prototype.filter`), summation (`reduce` with `+`), subsequences and
 a stable sort on a numeric key (`Array.prototype.sort` with a subtracting
 comparator, which is stable in every engine since ES2019).
 */
module Seqs {

  import opened Types

  /** The first element of `s` that satisfies `f`, as `Array.prototype.find`. */
  function FindFirst<T>(s: seq<T>, f: T -> bool): (r: Option<T>)
    ensures r.None? <==> forall i :: 0 <= i < |s| ==> !f(s[i])
    ensures r.Some? ==> exists i :: 0 <= i < |s| && s[i] == r.value && f(s[i])
                                  && forall j :: 0 <= j < i ==> !f(s[j])
  {
    if |s| == 0 then None
    else if f(s[0]) then Some(s[0])
    else
      var r := FindFirst(s[1..], f);
      assert r.Some? ==> exists i :: 0 <= i < |s[1..]| && s[1..][i] == r.value && f(s[1..][i])
                                  && forall j :: 0 <= j < i ==> !f(s[1..][j]);
      assert r.Some? ==> exists i :: 1 <= i < |s| && s[i] == r.value && f(s[i])
                                  && forall j :: 1 <= j < i ==> !f(s[j]);
      r
  }

  /** The elements of `s` that satisfy `f`, in their original order. */
  function Filter<T>(s: seq<T>, f: T -> bool): (r: seq<T>)
    ensures |r| <= |s|
    ensures forall i :: 0 <= i < |r| ==> r[i] in s && f(r[i])
    ensures forall i :: 0 <= i < |s| && f(s[i]) ==> s[i] in r
  {
    if |s| == 0 then []
    else if f(s[0]) then [s[0]] + Filter(s[1..], f)
    else Filter(s[1..], f)
  }

  /** Filtering keeps every copy of a passing value and no copy of a failing one. */
  lemma {:induction false} FilterCount<T>(s: seq<T>, f: T -> bool)
    ensures forall x :: multiset(Filter(s, f))[x] == if f(x) then multiset(s)[x] else 0
    decreases |s|
  {
    if |s| > 0 {
      FilterCount(s[1..], f);
      assert s == [s[0]] + s[1..];
    }
  }

  /** `a` is obtained from `b` by deleting some elements and keeping the order of the rest. */
  predicate IsSubsequence<T(==)>(a: seq<T>, b: seq<T>)
    decreases |b|
  {
    |a| == 0
    || (|b| > 0 && ((a[0] == b[0] && IsSubsequence(a[1..], b[1..])) || IsSubsequence(a, b[1..])))
  }

  lemma {:induction false} SubsequenceRefl<T>(s: seq<T>)
    ensures IsSubsequence(s, s)
    decreases |s|
  {
    if |s| > 0 {
      SubsequenceRefl(s[1..]);
    }
  }

  lemma {:induction false} SubsequenceMembers<T>(a: seq<T>, b: seq<T>)
    requires IsSubsequence(a, b)
    ensures forall x :: x in a ==> x in b
    decreases |b|
  {
    if |a| > 0 {
      if a[0] == b[0] && IsSubsequence(a[1..], b[1..]) {
        SubsequenceMembers(a[1..], b[1..]);
        assert forall x :: x in a ==> x == a[0] || x in a[1..];
      } else {
        SubsequenceMembers(a, b[1..]);
      }
    }
  }

  lemma {:induction false} SubsequenceTrans<T>(a: seq<T>, b: seq<T>, c: seq<T>)
    requires IsSubsequence(a, b) && IsSubsequence(b, c)
    ensures IsSubsequence(a, c)
    decreases |c|
  {
    if |a| > 0 {
      if b[0] == c[0] && IsSubsequence(b[1..], c[1..]) {
        if a[0] == b[0] && IsSubsequence(a[1..], b[1..]) {
          SubsequenceTrans(a[1..], b[1..], c[1..]);
        } else {
          SubsequenceTrans(a, b[1..], c[1..]);
        }
      } else {
        SubsequenceTrans(a, b, c[1..]);
      }
    }
  }

  lemma {:induction false} PrefixIsSubsequence<T>(s: seq<T>, n: nat)
    requires n <= |s|
    ensures IsSubsequence(s[..n], s)
    decreases n
  {
    if n > 0 {
      assert s[..n][1..] == s[1..][..n - 1];
      PrefixIsSubsequence(s[1..], n - 1);
    }
  }

  /** Filtering never reorders: its result is a subsequence of its input. */
  lemma {:induction false} FilterIsSubsequence<T>(s: seq<T>, f: T -> bool)
    ensures IsSubsequence(Filter(s, f), s)
    decreases |s|
  {
    if |s| > 0 {
      FilterIsSubsequence(s[1..], f);
      if f(s[0]) {
        assert Filter(s, f)[1..] == Filter(s[1..], f);
      }
    }
  }

  lemma {:induction false} FilterAppend<T>(a: seq<T>, b: seq<T>, f: T -> bool)
    ensures Filter(a + b, f) == Filter(a, f) + Filter(b, f)
    decreases |a|
  {
    if |a| > 0 {
      assert (a + b)[1..] == a[1..] + b;
      FilterAppend(a[1..], b, f);
    } else {
      assert a + b == b;
    }
  }

  /** Filtering a second time with the same test changes nothing. */
  lemma {:induction false} FilterIdempotent<T>(s: seq<T>, f: T -> bool)
    ensures Filter(Filter(s, f), f) == Filter(s, f)
    decreases |s|
  {
    if |s| > 0 {
      FilterIdempotent(s[1..], f);
      if f(s[0]) {
        assert ([s[0]] + Filter(s[1..], f))[1..] == Filter(s[1..], f);
      }
    }
  }

  /** A filter that every element passes is the identity. */
  lemma {:induction false} FilterKeepsAll<T>(s: seq<T>, f: T -> bool)
    requires forall i :: 0 <= i < |s| ==> f(s[i])
    ensures Filter(s, f) == s
    decreases |s|
  {
    if |s| > 0 {
      FilterKeepsAll(s[1..], f);
      assert [s[0]] + s[1..] == s;
    }
  }

  /** A filter that rejects exactly the element at index `k` deletes that element. */
  lemma {:induction false} FilterDropsOne<T>(s: seq<T>, k: nat, f: T -> bool)
    requires k < |s| && !f(s[k])
    requires forall i :: 0 <= i < |s| && i != k ==> f(s[i])
    ensures Filter(s, f) == s[..k] + s[k + 1..]
    decreases k
  {
    var t := s[..k] + s[k + 1..];
    if k == 0 {
      FilterKeepsAll(s[1..], f);
      assert t == s[1..];
    } else {
      FilterDropsOne(s[1..], k - 1, f);
      assert t == [s[0]] + (s[1..][..k - 1] + s[1..][k..]);
    }
  }

  /** The sum of `f` over `s`, as `reduce((acc, x) => acc + f(x), 0)`. */
  function Sum<T>(s: seq<T>, f: T -> int): int
  {
    if |s| == 0 then 0 else f(s[0]) + Sum(s[1..], f)
  }

  /** A sum of terms that are each at least `b` is at least `b` times their number. */
  lemma {:induction false} SumAtLeast<T>(s: seq<T>, f: T -> int, b: int)
    requires forall i :: 0 <= i < |s| ==> f(s[i]) >= b
    ensures Sum(s, f) >= b * |s|
    decreases |s|
  {
    if |s| > 0 {
      SumAtLeast(s[1..], f, b);
      assert b * |s| == b + b * (|s| - 1);
    }
  }

  lemma {:induction false} SumAppend<T>(a: seq<T>, b: seq<T>, f: T -> int)
    ensures Sum(a + b, f) == Sum(a, f) + Sum(b, f)
    decreases |a|
  {
    if |a| > 0 {
      assert (a + b)[1..] == a[1..] + b;
      SumAppend(a[1..], b, f);
    } else {
      assert a + b == b;
    }
  }

  /** Replacing the element at index `k` changes the sum by the difference of the two terms. */
  lemma SumReplace<T>(s: seq<T>, k: nat, y: T, f: T -> int)
    requires k < |s|
    ensures Sum(s[k := y], f) == Sum(s, f) - f(s[k]) + f(y)
  {
    var t := s[k := y];
    assert s == s[..k] + [s[k]] + s[k + 1..];
    assert t == s[..k] + [y] + s[k + 1..];
    SumAppend(s[..k] + [s[k]], s[k + 1..], f);
    SumAppend(s[..k], [s[k]], f);
    SumAppend(s[..k] + [y], s[k + 1..], f);
    SumAppend(s[..k], [y], f);
  }

  /** Deleting the element at index `k` lowers the sum by its term. */
  lemma {:induction false} SumRemove<T>(s: seq<T>, k: nat, f: T -> int)
    requires k < |s|
    ensures Sum(s[..k] + s[k + 1..], f) == Sum(s, f) - f(s[k])
    decreases k
  {
    var t := s[..k] + s[k + 1..];
    if k == 0 {
      assert t == s[1..];
    } else {
      SumRemove(s[1..], k - 1, f);
      assert t[0] == s[0] && t[1..] == s[1..][..k - 1] + s[1..][k..];
    }
  }

  /** `s` is in non-decreasing order of `key`. */
  predicate SortedBy<T>(s: seq<T>, key: T -> real) {
    forall i, j :: 0 <= i < j < |s| ==> key(s[i]) <= key(s[j])
  }

  /** Every element of `s` has a key of at least `b`. */
  predicate KeysAtLeast<T>(s: seq<T>, key: T -> real, b: real) {
    forall i :: 0 <= i < |s| ==> b <= key(s[i])
  }

  /** Inserts `x` before the first element whose key is not smaller. */
  function Insert<T>(x: T, s: seq<T>, key: T -> real): (r: seq<T>)
    ensures multiset(r) == multiset(s) + multiset{x}
  {
    if |s| == 0 || key(x) <= key(s[0]) then [x] + s
    else
      assert s == [s[0]] + s[1..];
      [s[0]] + Insert(x, s[1..], key)
  }

  lemma {:induction false} InsertKeysAtLeast<T>(x: T, s: seq<T>, key: T -> real, b: real)
    requires KeysAtLeast(s, key, b) && b <= key(x)
    ensures KeysAtLeast(Insert(x, s, key), key, b)
    decreases |s|
  {
    if |s| > 0 && key(s[0]) < key(x) {
      InsertKeysAtLeast(x, s[1..], key, b);
    }
  }

  /** Inserting into a sorted sequence keeps it sorted. */
  lemma {:induction false} InsertSorted<T>(x: T, s: seq<T>, key: T -> real)
    requires SortedBy(s, key)
    ensures SortedBy(Insert(x, s, key), key)
    decreases |s|
  {
    if |s| > 0 && key(s[0]) < key(x) {
      InsertSorted(x, s[1..], key);
      InsertKeysAtLeast(x, s[1..], key, key(s[0]));
    }
  }

  /** Stable insertion sort by ascending `key`: a sorted permutation of `s`. */
  function SortBy<T>(s: seq<T>, key: T -> real): (r: seq<T>)
    ensures multiset(r) == multiset(s)
    ensures SortedBy(r, key)
  {
    if |s| == 0 then []
    else
      assert s == [s[0]] + s[1..];
      var rest := SortBy(s[1..], key);
      InsertSorted(s[0], rest, key);
      Insert(s[0], rest, key)
  }

  /** The test "has key `k`". */
  function KeyIs<T>(key: T -> real, k: real): T -> bool {
    x => key(x) == k
  }

  lemma {:induction false} InsertStable<T>(x: T, s: seq<T>, key: T -> real, k: real)
    requires SortedBy(s, key)
    ensures Filter(Insert(x, s, key), KeyIs(key, k))
         == (if key(x) == k then [x] else []) + Filter(s, KeyIs(key, k))
    decreases |s|
  {
    var g := KeyIs(key, k);
    if |s| == 0 || key(x) <= key(s[0]) {
      assert ([x] + s)[1..] == s;
    } else {
      var r := Insert(x, s, key);
      assert r[1..] == Insert(x, s[1..], key);
      InsertStable(x, s[1..], key, k);
    }
  }

  /**
   Stability: for every key value, the elements with that key appear in the
   sorted result in the same order as in the input.
   */
  lemma {:induction false} SortByStable<T>(s: seq<T>, key: T -> real, k: real)
    ensures Filter(SortBy(s, key), KeyIs(key, k)) == Filter(s, KeyIs(key, k))
    decreases |s|
  {
    if |s| > 0 {
      SortByStable(s[1..], key, k);
      InsertStable(s[0], SortBy(s[1..], key), key, k);
    }
  }
}

=== FILE: session.dfy ===
/**
 The authentication context: the current user, the loading flag the route
 guard waits on, and the persisted session record. Login builds the user
 from the e-mail address and role alone; there is no password check.
 */
module Session {

  import opened Types

  /** `saved` is the persisted session record (`None` when the key is absent). */
  datatype AuthState = AuthState(user: Option<User>, isLoading: bool, saved: Option<User>)

  /** The state at mount, before the saved record has been read. */
  function Mount(saved: Option<User>): AuthState {
    AuthState(None, true, saved)
  }

  /** The start-up effect: adopt the saved user if there is one, then stop loading. */
  function Restore(s: AuthState): (r: AuthState)
    ensures !r.isLoading && r.saved == s.saved
    ensures s.saved.Some? ==> r.user == s.saved
    ensures s.saved.None? ==> r.user == s.user
  {
    AuthState(if s.saved.Some? then s.saved else s.user, false, s.saved)
  }

  /** `email.split('@')[0]`: the text before the first `@`, or all of it. */
  function LocalPart(email: string): (r: string)
    ensures |r| <= |email| && r == email[..|r|]
    ensures '@' !in r
    ensures |r| == |email| || email[|r|] == '@'
  {
    if |email| == 0 || email[0] == '@' then ""
    else [email[0]] + LocalPart(email[1..])
  }

  function AvatarUrl(email: string): string {
    "https://ui-avatars.com/api/?name=" + email + "&background=random"
  }

  /** The user `login` creates; `id` stands for the random base-36 identifier. */
  function NewUser(email: string, role: Role, id: string): (u: User)
    ensures u.id == id && u.email == email && u.role == role
    ensures u.name == LocalPart(email)
    ensures u.verified <==> role != VENDOR
    ensures u.avatar == "https://ui-avatars.com/api/?name=" + email + "&background=random"
  {
    User(id, LocalPart(email), email, role, AvatarUrl(email), role != VENDOR)
  }

  /** A completed login: the new user is current and persisted, and loading is over. */
  function Login(s: AuthState, email: string, role: Role, id: string): (r: AuthState)
    ensures r.user == Some(NewUser(email, role, id)) && r.saved == r.user && !r.isLoading
  {
    var u := NewUser(email, role, id);
    AuthState(Some(u), false, Some(u))
  }

  /** Clears the user and the persisted record; the loading flag is untouched. */
  function Logout(s: AuthState): (r: AuthState)
    ensures r.user.None? && r.saved.None? && r.isLoading == s.isLoading
  {
    AuthState(None, s.isLoading, None)
  }

  /** A reload after login brings back the same user. */
  lemma LoginSurvivesReload(s: AuthState, email: string, role: Role, id: string)
    ensures Restore(Mount(Login(s, email, role, id).saved)).user == Login(s, email, role, id).user
  {
  }

  /** A reload after logout starts signed out. */
  lemma LogoutSurvivesReload(s: AuthState)
    ensures Restore(Mount(Logout(s).saved)).user.None?
  {
  }

  /** The local part is determined by the text before the first `@`. */
  lemma {:induction false} LocalPartOfAddress(name: string, domain: string)
    requires '@' !in name
    ensures LocalPart(name + "@" + domain) == name
    decreases |name|
  {
    if |name| > 0 {
      assert (name + "@" + domain)[1..] == name[1..] + "@" + domain;
      LocalPartOfAddress(name[1..], domain);
    } else {
      assert (name + "@" + domain)[0] == '@';
    }
  }
}

=== FILE: store.dfy ===
/**
 The mock back end: two persisted collections, products and orders, kept
 under two storage keys. Every operation reads the whole collection,
 changes it and writes it back as one step. A missing products key reads
 as the in-memory seed catalog; a missing orders key reads as no orders.
 */
module Store {

  import opened Types
  import opened Seqs
  import Decimal

  /** The two storage keys: `None` is an absent key, `Some(s)` a stored list. */
  datatype Storage = Storage(products: Option<seq<Product>>, orders: Option<seq<Order>>)

  /** A product as a vendor submits it: everything but id, rating and review count. */
  datatype NewProduct = NewProduct(
    name: string,
    price: int,
    discountPrice: Option<int>,
    description: string,
    category: string,
    images: seq<string>,
    vendorId: string,
    vendorName: string,
    vendorVerified: bool,
    stock: int,
    specifications: map<string, string>
  )

  /** An order as checkout submits it: everything but id, creation time and status. */
  datatype OrderDraft = OrderDraft(
    userId: string,
    vendorId: string,
    items: seq<CartItem>,
    total: int,
    customer: Customer
  )

  /** Module load: the seed catalog is written only when the products key is absent. */
  function Init(st: Storage, seed: seq<Product>): (r: Storage)
    ensures st.products.None? ==> r.products == Some(seed)
    ensures st.products.Some? ==> r == st
    ensures r.orders == st.orders
  {
    if st.products.None? then st.(products := Some(seed)) else st
  }

  /** The product list; the seed stands in when the key is absent. */
  function GetProducts(st: Storage, seed: seq<Product>): (r: seq<Product>)
    ensures st.products.Some? ==> r == st.products.value
    ensures st.products.None? ==> r == seed
  {
    st.products.GetOr(seed)
  }

  function Orders(st: Storage): seq<Order> {
    st.orders.GetOr([])
  }

  /** After start-up the catalog no longer depends on the fallback seed. */
  lemma InitFixesCatalog(st: Storage, seed: seq<Product>, other: seq<Product>)
    ensures GetProducts(Init(st, seed), other) == GetProducts(st, seed)
    ensures Init(Init(st, seed), other) == Init(st, seed)
  {
  }

  function HasProductId(id: string): Product -> bool {
    (p: Product) => p.id == id
  }

  function NotProductId(id: string): Product -> bool {
    (p: Product) => p.id != id
  }

  function FromVendor(vendorId: string): Product -> bool {
    (p: Product) => p.vendorId == vendorId
  }

  /** The first product with the given id, or none when no product has it. */
  function GetProductById(st: Storage, seed: seq<Product>, id: string): (r: Option<Product>)
    ensures var ps := GetProducts(st, seed);
      && (r.None? <==> forall i :: 0 <= i < |ps| ==> ps[i].id != id)
      && (r.Some? ==> exists i :: 0 <= i < |ps| && ps[i] == r.value && r.value.id == id
                                 && forall j :: 0 <= j < i ==> ps[j].id != id)
  {
    FindFirst(GetProducts(st, seed), HasProductId(id))
  }

  /** Exactly the products of one vendor, in stored order. */
  function GetVendorProducts(st: Storage, seed: seq<Product>, vendorId: string): (r: seq<Product>)
    ensures var ps := GetProducts(st, seed);
      && (forall i :: 0 <= i < |r| ==> r[i] in ps && r[i].vendorId == vendorId)
      && (forall i :: 0 <= i < |ps| && ps[i].vendorId == vendorId ==> ps[i] in r)
      && IsSubsequence(r, ps)
    ensures forall x :: multiset(r)[x] == if x.vendorId == vendorId then multiset(GetProducts(st, seed))[x] else 0
  {
    FilterIsSubsequence(GetProducts(st, seed), FromVendor(vendorId));
    FilterCount(GetProducts(st, seed), FromVendor(vendorId));
    Filter(GetProducts(st, seed), FromVendor(vendorId))
  }

  /** The stored record for a submitted product, with its fresh id and no ratings yet. */
  function NewRecord(input: NewProduct, id: string): Product {
    Product(id, input.name, input.price, input.discountPrice, input.description, input.category,
            input.images, input.vendorId, input.vendorName, input.vendorVerified,
            0.0, 0, input.stock, input.specifications)
  }

  /**
   Puts a new product at the front of the catalog. `idSuffix` stands for the
   random base-36 text after `p-`. Returns the new storage and the record.
   */
  function AddProduct(st: Storage, seed: seq<Product>, input: NewProduct, idSuffix: string)
    : (r: (Storage, Product))
    ensures r.0.products.Some?
    ensures var ps := r.0.products.value;
      |ps| == |GetProducts(st, seed)| + 1 && ps[0] == r.1 && ps[1..] == GetProducts(st, seed)
    ensures r.1.id == "p-" + idSuffix && r.1.rating == 0.0 && r.1.reviewsCount == 0
    ensures r.1.(id := "", rating := 0.0, reviewsCount := 0) == NewRecord(input, "")
    ensures r.0.orders == st.orders
  {
    var p := NewRecord(input, "p-" + idSuffix);
    (st.(products := Some([p] + GetProducts(st, seed))), p)
  }

  /** Removes every product with the given id and keeps the rest in order. */
  function DeleteProduct(st: Storage, seed: seq<Product>, id: string): (r: Storage)
    ensures r.products.Some?
    ensures var ps := GetProducts(st, seed);
      && (forall i :: 0 <= i < |r.products.value| ==> r.products.value[i] in ps && r.products.value[i].id != id)
      && (forall i :: 0 <= i < |ps| && ps[i].id != id ==> ps[i] in r.products.value)
      && IsSubsequence(r.products.value, ps)
    ensures forall x :: multiset(r.products.value)[x] == if x.id != id then multiset(GetProducts(st, seed))[x] else 0
    ensures r.orders == st.orders
  {
    FilterIsSubsequence(GetProducts(st, seed), NotProductId(id));
    FilterCount(GetProducts(st, seed), NotProductId(id));
    st.(products := Some(Filter(GetProducts(st, seed), NotProductId(id))))
  }

  /** Deleting twice is deleting once. */
  lemma DeleteProductIdempotent(st: Storage, seed: seq<Product>, other: seq<Product>, id: string)
    ensures DeleteProduct(DeleteProduct(st, seed, id), other, id) == DeleteProduct(st, seed, id)
  {
    FilterIdempotent(GetProducts(st, seed), NotProductId(id));
  }

  /** Deleting an id nobody has leaves the catalog as it reads. */
  lemma DeleteAbsentIsNoOp(st: Storage, seed: seq<Product>, id: string)
    requires forall i :: 0 <= i < |GetProducts(st, seed)| ==> GetProducts(st, seed)[i].id != id
    ensures GetProducts(DeleteProduct(st, seed, id), seed) == GetProducts(st, seed)
  {
    FilterKeepsAll(GetProducts(st, seed), NotProductId(id));
  }

  /** Deleting a freshly added product restores the catalog, when its id was new. */
  lemma DeleteUndoesAdd(st: Storage, seed: seq<Product>, input: NewProduct, idSuffix: string)
    requires forall i :: 0 <= i < |GetProducts(st, seed)| ==> GetProducts(st, seed)[i].id != "p-" + idSuffix
    ensures var (st1, p) := AddProduct(st, seed, input, idSuffix);
      GetProducts(DeleteProduct(st1, seed, p.id), seed) == GetProducts(st, seed)
  {
    var ps := GetProducts(st, seed);
    var p := NewRecord(input, "p-" + idSuffix);
    FilterKeepsAll(ps, NotProductId(p.id));
    assert ([p] + ps)[1..] == ps;
  }

  /** `Math.floor(Math.random() * 1000000)` for a draw in [0, 1). */
  function OrderNumber(draw: real): (n: nat)
    requires 0.0 <= draw < 1.0
    ensures n <= 999999
  {
    (draw * 1000000.0).Floor
  }

  function OrderId(draw: real): string
    requires 0.0 <= draw < 1.0
  {
    "ORD-" + Decimal.Show(OrderNumber(draw))
  }

  /**
   Appends one order built from `draft`, in state PENDING, with the id
   `ORD-<n>` for the random draw and the given creation time.
   */
  function CreateOrder(st: Storage, draft: OrderDraft, draw: real, createdAt: string): (r: (Storage, Order))
    requires 0.0 <= draw < 1.0
    ensures r.0.orders == Some(Orders(st) + [r.1])
    ensures r.0.products == st.products
    ensures r.1.status == PENDING && r.1.createdAt == createdAt
    ensures exists n: nat :: n <= 999999 && r.1.id == "ORD-" + Decimal.Show(n)
    ensures r.1.userId == draft.userId && r.1.vendorId == draft.vendorId && r.1.items == draft.items
    ensures r.1.total == draft.total && r.1.customer == draft.customer
  {
    var o := Order(OrderId(draw), draft.userId, draft.vendorId, draft.items, draft.total,
                   PENDING, createdAt, draft.customer);
    (st.(orders := Some(Orders(st) + [o])), o)
  }

  /** Some line of the order is sold by `vendorId` (`items.some(...)`). */
  predicate HasVendorItem(o: Order, vendorId: string) {
    exists k :: 0 <= k < |o.items| && o.items[k].product.vendorId == vendorId
  }

  function ForVendor(vendorId: string): Order -> bool {
    (o: Order) => HasVendorItem(o, vendorId)
  }

  function ForUser(userId: string): Order -> bool {
    (o: Order) => o.userId == userId
  }

  /** The role-scoped view of a list of orders. */
  function View(os: seq<Order>, role: Role, id: string): seq<Order> {
    match role
    case ADMIN => os
    case VENDOR => Filter(os, ForVendor(id))
    case _ => Filter(os, ForUser(id))
  }

  /**
   Orders visible to an actor: all of them for ADMIN, those with a line from
   the vendor for VENDOR, and the actor's own for every other role.
   */
  function GetOrders(st: Storage, role: Role, id: string): (r: seq<Order>)
    ensures role == ADMIN ==> r == Orders(st)
    ensures role == VENDOR ==>
      && (forall i :: 0 <= i < |r| ==> r[i] in Orders(st) && HasVendorItem(r[i], id))
      && (forall i :: 0 <= i < |Orders(st)| && HasVendorItem(Orders(st)[i], id) ==> Orders(st)[i] in r)
    ensures role != ADMIN && role != VENDOR ==>
      && (forall i :: 0 <= i < |r| ==> r[i] in Orders(st) && r[i].userId == id)
      && (forall i :: 0 <= i < |Orders(st)| && Orders(st)[i].userId == id ==> Orders(st)[i] in r)
    ensures IsSubsequence(r, Orders(st))
    ensures role == VENDOR ==>
      forall o :: multiset(r)[o] == if HasVendorItem(o, id) then multiset(Orders(st))[o] else 0
    ensures role != ADMIN && role != VENDOR ==>
      forall o :: multiset(r)[o] == if o.userId == id then multiset(Orders(st))[o] else 0
  {
    match role
    case ADMIN => SubsequenceRefl(Orders(st)); View(Orders(st), role, id)
    case VENDOR => VendorView(Orders(st), id); View(Orders(st), role, id)
    case _ => UserView(Orders(st), id); View(Orders(st), role, id)
  }

  lemma VendorView(os: seq<Order>, id: string)
    ensures IsSubsequence(Filter(os, ForVendor(id)), os)
    ensures forall o :: multiset(Filter(os, ForVendor(id)))[o] == if HasVendorItem(o, id) then multiset(os)[o] else 0
  {
    FilterIsSubsequence(os, ForVendor(id));
    FilterCount(os, ForVendor(id));
  }

  lemma UserView(os: seq<Order>, id: string)
    ensures IsSubsequence(Filter(os, ForUser(id)), os)
    ensures forall o :: multiset(Filter(os, ForUser(id)))[o] == if o.userId == id then multiset(os)[o] else 0
  {
    FilterIsSubsequence(os, ForUser(id));
    FilterCount(os, ForUser(id));
  }

  /** Every order any actor sees is also in the administrator's view. */
  lemma AdminSeesEverything(st: Storage, role: Role, id: string, adminId: string)
    ensures forall o :: o in GetOrders(st, role, id) ==> o in GetOrders(st, ADMIN, adminId)
  {
    SubsequenceMembers(GetOrders(st, role, id), Orders(st));
  }

  /** Replaces the status of every order with id `orderId`. */
  function SetStatus(os: seq<Order>, orderId: string, status: Status): (r: seq<Order>)
    ensures |r| == |os|
    ensures forall i :: 0 <= i < |os| ==> r[i].(status := os[i].status) == os[i]
    ensures forall i :: 0 <= i < |os| && os[i].id == orderId ==> r[i].status == status
    ensures forall i :: 0 <= i < |os| && os[i].id != orderId ==> r[i] == os[i]
  {
    if |os| == 0 then []
    else [StatusFor(os[0], orderId, status)] + SetStatus(os[1..], orderId, status)
  }

  function StatusFor(o: Order, orderId: string, status: Status): Order {
    if o.id == orderId then o.(status := status) else o
  }

  /** Sets the status of the matching orders; any status may follow any other. */
  function UpdateOrderStatus(st: Storage, orderId: string, status: Status): (r: Storage)
    ensures r.orders == Some(SetStatus(Orders(st), orderId, status))
    ensures r.products == st.products
  {
    st.(orders := Some(SetStatus(Orders(st), orderId, status)))
  }

  /** Filtering by a test that ignores the status commutes with a status update. */
  lemma {:induction false} SetStatusFilter(os: seq<Order>, orderId: string, status: Status, f: Order -> bool)
    requires forall i :: 0 <= i < |os| ==> f(StatusFor(os[i], orderId, status)) == f(os[i])
    ensures Filter(SetStatus(os, orderId, status), f) == SetStatus(Filter(os, f), orderId, status)
    decreases |os|
  {
    if |os| > 0 {
      assert forall i :: 0 <= i < |os[1..]| ==> os[1..][i] == os[i + 1];
      SetStatusFilter(os[1..], orderId, status, f);
      var t := SetStatus(os, orderId, status);
      assert t[0] == StatusFor(os[0], orderId, status) && t[1..] == SetStatus(os[1..], orderId, status);
      if f(os[0]) {
        var v := Filter(os, f);
        assert v[0] == os[0] && v[1..] == Filter(os[1..], f);
      }
    }
  }

  lemma SetStatusView(os: seq<Order>, orderId: string, status: Status, role: Role, id: string)
    ensures View(SetStatus(os, orderId, status), role, id) == SetStatus(View(os, role, id), orderId, status)
  {
    match role
    case ADMIN =>
    case VENDOR => SetStatusFilter(os, orderId, status, ForVendor(id));
    case _ => SetStatusFilter(os, orderId, status, ForUser(id));
  }

  /**
   A status change never moves an order into or out of anyone's view: listing
   after the update is the update applied to the listing.
   */
  lemma UpdateCommutesWithViews(st: Storage, orderId: string, status: Status, role: Role, id: string)
    ensures GetOrders(UpdateOrderStatus(st, orderId, status), role, id)
         == SetStatus(GetOrders(st, role, id), orderId, status)
  {
    SetStatusView(Orders(st), orderId, status, role, id);
  }

  /** A created order joins exactly the views whose filter admits it, at the end. */
  lemma CreateOrderViews(st: Storage, draft: OrderDraft, draw: real, createdAt: string, role: Role, id: string)
    requires 0.0 <= draw < 1.0
    ensures var (st1, o) := CreateOrder(st, draft, draw, createdAt);
      GetOrders(st1, role, id) == GetOrders(st, role, id) + View([o], role, id)
  {
    var (st1, o) := CreateOrder(st, draft, draw, createdAt);
    match role
    case ADMIN =>
    case VENDOR => FilterAppend(Orders(st), [o], ForVendor(id));
    case _ => FilterAppend(Orders(st), [o], ForUser(id));
  }
}

=== FILE: types.dfy ===
/**
 The storefront's entities: roles, order statuses, products, cart lines,
 orders, users and categories, plus the JavaScript truthiness rules the
 pages apply to optional prices and identifiers.
 */
module Types {

  /** An optional value, standing for `undefined`/`null` and absent storage keys. */
  datatype Option<+T> = None | Some(value: T) {

    /** The value if present, otherwise the given default. */
    function GetOr(default: T): T {
      match this
      case Some(v) => v
      case None => default
    }
  }

  datatype Role = USER | VENDOR | ADMIN | GUEST

  datatype Status = PENDING | CONFIRM | PROCESSING | PICKUP | ON_THE_WAY | DELIVERED | CANCELLED

  /** Prices and stock are whole taka; `rating` is fractional. */
  datatype Product = Product(
    id: string,
    name: string,
    price: int,
    discountPrice: Option<int>,
    description: string,
    category: string,
    images: seq<string>,
    vendorId: string,
    vendorName: string,
    vendorVerified: bool,
    rating: real,
    reviewsCount: int,
    stock: int,
    specifications: map<string, string>
  )

  /** A product in the cart together with the number of units chosen. */
  datatype CartItem = CartItem(product: Product, quantity: int)

  datatype Customer = Customer(name: string, email: string, phone: string, address: string)

  datatype Order = Order(
    id: string,
    userId: string,
    vendorId: string,
    items: seq<CartItem>,
    total: int,
    status: Status,
    createdAt: string,
    customer: Customer
  )

  datatype User = User(
    id: string,
    name: string,
    email: string,
    role: Role,
    avatar: string,
    verified: bool
  )

  datatype Category = Category(id: string, name: string, icon: string)

  /** `discountPrice` is truthy: present and not zero. */
  predicate HasDiscount(p: Product) {
    p.discountPrice.Some? && p.discountPrice.value != 0
  }

  /**
   `discountPrice || price`: the price a buyer pays for one unit. A discount
   price of zero is falsy, so it falls back to the list price as a missing one does.
   */
  function EffectivePrice(p: Product): (r: int)
    ensures p.discountPrice.None? || p.discountPrice == Some(0) ==> r == p.price
    ensures p.discountPrice.Some? && p.discountPrice.value != 0 ==> r == p.discountPrice.value
  {
    if HasDiscount(p) then p.discountPrice.value else p.price
  }

  /** `s || fallback` for a string: the empty string is falsy. */
  function OrElse(s: string, fallback: string): string {
    if s != "" then s else fallback
  }
}
